=== FILE: README.md ===
# FFmpeg command builders and progress worker, in Dafny

This project models the core of a desktop front-end for FFmpeg. That core
has three parts:

- The command builders of `logic/ffmpeg_logic.py`. They turn the options a
  tab collects into an FFmpeg argument list and an output path. The
  operations are sequence-to-video, add audio, cut, limit bitrate, scale,
  crop, remove audio and replace audio. The helpers `get_unique_filename`,
  `detect_image_prefix` and `parse_time_to_seconds` are modelled too.
- The older sequence-to-video builder in `ffmpeg_logic.py`, which the
  root GUI uses. Its `detect_image_prefix` (`ffmpeg_logic.py:6-20`) is the
  same code as the one in `logic/ffmpeg_logic.py:30-44`. Both share one
  model, `ImagePattern.DetectImagePrefix`.
- The pure parts of `FFmpegWorker.run` in `logic/ffmpeg_worker.py`:
  - reading stderr line by line in text mode;
  - the `frame=\s*(\d+)` search;
  - the percentage;
  - the final `(success, message)` signal.

The files follow the program's structure:

| file | module | contents |
|---|---|---|
| `common.dfy` | `Common` | `Option`, Python truthiness of an optional string, `BuiltCommand` (argument list plus output path), the shared AAC options |
| `text.dfy` | `Text` | ASCII digits and numerals, `str(int)`, `str.lower`, prefix and suffix tests, `str.split` with its inverse `join`, the order `sorted` uses |
| `paths.dfy` | `Paths` | POSIX `os.path.join`, `os.path.splitext`, `rsplit('.', 1)[0]`, `get_unique_filename` |
| `image_pattern.dfy` | `ImagePattern` | `sorted(listing)[0]`, the anchored greedy matches of `(.+_)(\d+)` and `(.+_)(\d{4})`, `detect_image_prefix` |
| `builders.dfy` | `Builders` | every builder of `logic/ffmpeg_logic.py` and `parse_time_to_seconds` |
| `legacy_builder.dfy` | `LegacyBuilder` | the builder of `ffmpeg_logic.py` and how it differs from the newer one |
| `worker.dfy` | `Worker` | newline translation, `readline`, the frame search, the percentage, the progress sequence, the final signal |

The effects of the operating system become inputs:

- A directory listing is a `seq<string>` in `os.listdir` order.
- `os.path.exists` is membership in a `set<string>` of existing paths.
- The readings of `int(time.time())` that `get_unique_filename` takes are a
  `seq<nat>`. `Resolvable` states that some reading gives a free name. The
  source would otherwise spin until the clock ticks.
- `float(fps)` is an `Option<real>`, `None` when it raises `ValueError`.
- The fade lengths and the duration are Python numbers, `Builders.Number`:
  an `int` or a `float`, as the caller passes or the code computes them.
  An int prints as `str(int)`. Python's rendering of a float inside the
  fade filter is a function parameter `showFloat`.
- The worker's stderr is the whole text the process writes. Its return code
  is an integer. The emitted signals are the results: the list of progress
  values and an `Outcome`.

Some facts about the code that the model keeps as they are:

- The sequence command passes no `-start_number`, so FFmpeg's image2
  demuxer takes the first frame to be the lowest existing index among 0
  to 4; a sequence numbered from 5 or later is not found.
- The percentage is not clamped to 100.
- `(\d+)` accepts a single digit.
- The worker has no cancellation path, and no builder has an option to
  favour the audio length over the video length.
- The cut output is always `.mp4`, whatever `output_format` says.

## Model

| member | source | states |
|---|---|---|
| Text.NatToString | logic/ffmpeg_logic.py:216-217 | `str(n)` of a non-negative int is a canonical decimal numeral (no leading zero) whose value is `n` |
| Text.NumeralRoundTrip | logic/ffmpeg_logic.py:229-231 | `int()` then `str()` of a canonical numeral gives back the same text, so the two are mutually inverse |
| Text.Split | logic/ffmpeg_logic.py:229 | `time_str.split(':')` yields pieces with no ':' in them that join back, with ':' between them, to the original text |
| Text.SplitJoin | logic/ffmpeg_logic.py:229 | splitting the ':'-join of colon-free pieces gives back exactly those pieces |
| Text.IntToString | logic/ffmpeg_logic.py:335 | `str(i)` of any int is the canonical numeral of `i`, or '-' followed by the canonical numeral of `-i` when `i` is negative |
| Text.Lower | logic/ffmpeg_logic.py:78 | `str.lower()` on ASCII keeps the length, lowers each capital letter and leaves every other character, so no ASCII capital remains |
| Text.LexLeTotal | logic/ffmpeg_logic.py:67 | the code-point order `sorted` uses relates any two names one way or the other |
| Text.LexLeTransitive | logic/ffmpeg_logic.py:67 | that order is transitive |
| Text.LexLeAntisymmetric | logic/ffmpeg_logic.py:67 | two names ordered both ways are equal, so the least name is unique |
| Paths.Join | logic/ffmpeg_logic.py:100-104 | `os.path.join(folder, name)` is `name` alone when `name` is absolute; otherwise it is `folder`, then one '/' unless `folder` is empty or already ends in '/', then `name` |
| Paths.SplitExt | logic/ffmpeg_logic.py:20 | `os.path.splitext`: root plus extension is the path; the extension is non-empty exactly when the path has an admissible cut, and then it starts at that cut (the last dot of the last component, not a leading dot) |
| Paths.RSplitRoot | logic/ffmpeg_logic.py:175 | `rsplit('.', 1)[0]` is a prefix of the path that stops at its last '.', wherever that '.' is, or the whole path when there is none |
| Paths.RootsDifferOnDottedDirectory | logic/ffmpeg_logic.py:175 | on "clips.v2/take" the add-audio root is "clips" while `splitext` keeps the whole path |
| Paths.FirstFreeReading | logic/ffmpeg_logic.py:25-27 | the retry loop stops at the first clock reading whose stamped name is free; every earlier reading gave an existing name |
| Paths.UniquePath | logic/ffmpeg_logic.py:13-28 | the result does not exist; it is the path itself when that is free, otherwise `{base}_{t}{ext}` for the first reading `t` that gives a free name |
| Paths.GetUniqueFilename | logic/ffmpeg_logic.py:13-28 | the loop returns a name that does not exist and equals the case-by-case definition `UniquePath` |
| Paths.SplitExtOfStem | logic/ffmpeg_logic.py:20 | `splitext("{stem}.{ext}")` is `(stem, ".{ext}")` for a plain extension and a stem ending in a name character |
| Paths.Stamped | logic/ffmpeg_logic.py:19-23 | `f"{base}_{timestamp}{ext}"` is always longer than the path, so stamping never gives back the taken name; `Paths.StampedOfStem` gives its shape |
| Paths.StampedOfStem | logic/ffmpeg_logic.py:20-23 | the stamped name of `{stem}.{ext}` is `{stem}_{t}.{ext}` |
| ImagePattern.FirstName | logic/ffmpeg_logic.py:67-70 | `sorted(files)[0]` is one of the listed names |
| ImagePattern.FirstNameIsLeast | logic/ffmpeg_logic.py:67-70 | that name is no greater than any listed name |
| ImagePattern.FirstNameIsUnique | logic/ffmpeg_logic.py:67-70 | any least name is that name, so the choice does not depend on the order `os.listdir` returns |
| ImagePattern.GreedySplitFrom | logic/ffmpeg_logic.py:70 | the backtracking of `.+` from a position down finds the greatest admissible '_' at or below it, or reports that there is none |
| ImagePattern.GreedySplit | logic/ffmpeg_logic.py:70 | the greedy `(.+_)` ends at the last admissible '_', and it fails exactly when no '_' is admissible |
| ImagePattern.MatchNumbered | logic/ffmpeg_logic.py:70-74 | `re.match(r"(.+_)(\d+)")` fails exactly when no '_' at index 1 or later has no newline anywhere before it and a digit right after it; otherwise group 1 ends at the last such '_' and group 2 is the whole digit run after it |
| ImagePattern.MatchFourDigitPrefix | ffmpeg_logic.py:15-19 | `re.match(r"(.+_)(\d{4})")` fails exactly when no '_' at index 1 or later has no newline anywhere before it and four digits right after it; otherwise group 1 ends at the last such '_' |
| ImagePattern.DetectImagePrefix | logic/ffmpeg_logic.py:30-44 | no prefix for an empty listing or a first name without a four-digit split; otherwise a prefix of the first name whose final '_' is admissible (index 1 or later, no newline before it, four digits after it), with no admissible '_' after it (the greedy, last split) |
| ImagePattern.NewlineStopsPrefix | logic/ffmpeg_logic.py:39-43 | on the first name "x_1234\ny_5678" the prefix is "x_": `.+` cannot cross the newline, so the later '_' is not admissible |
| ImagePattern.GreedySplitIsLast | logic/ffmpeg_logic.py:70 | an admissible '_' with none admissible after it is where the greedy split lands |
| ImagePattern.NumberedNameIsMatched | logic/ffmpeg_logic.py:70-74 | `{prefix}{digits}{ext}` matches as exactly that prefix and that digit run, for any digit count |
| ImagePattern.FourDigitPrefixNoLonger | logic/ffmpeg_logic.py:39 | when `(\d{4})` matches, `(\d+)` matches too, with a prefix at least as long |
| Builders.Encoder | logic/ffmpeg_logic.py:117-144 | the codec is libx265 exactly for the three H.265 labels and libx264 otherwise; the default pixel format is 10-bit exactly for the two 10-bit labels, 16-bit exactly for the two 16-bit labels, and yuv420p otherwise |
| Builders.OutputExtension | logic/ffmpeg_logic.py:87-97 | the extension is one of mp4, avi, mkv, mov: "mp4" for labels starting with mp4 in any case, the lowered label for avi, mkv and mov, and "mp4" for everything else |
| Builders.VideoOptions | logic/ffmpeg_logic.py:115-144 | the chain of label comparisons yields exactly the codec and bit-depth default of the encoder table, with the caller's pixel format winning when it is given |
| Builders.HevcExactlyForHevcLabels | logic/ffmpeg_logic.py:117-128 | libx265 is chosen exactly for the three H.265 labels |
| Builders.SequenceImages | logic/ffmpeg_logic.py:76-79 | a name is kept exactly when it ends in `.png` in any case and starts with the prefix, and it is kept as many times as it is listed, so the count is the number of matching entries |
| Builders.ChosenPixFmt | logic/ffmpeg_logic.py:119 | `pix_fmt if pix_fmt else default_fmt`: the caller's value when it is non-empty, otherwise the label's default, one of yuv420p, yuv420p10le and yuv420p16le |
| Builders.SequenceDuration | logic/ffmpeg_logic.py:81-85 | for a positive rate (30.0 when `float` fails) the duration is a float whose product with the rate is the image count; otherwise it is the int 0 |
| Builders.Minus | logic/ffmpeg_logic.py:148 | `duration - fade_out_duration` has the difference as its value, and it is an int exactly when both operands are ints |
| Builders.Show | logic/ffmpeg_logic.py:148 | inside the f-string an int prints as `str(int)`, with no '.' and no ','; a float prints by Python's float rendering |
| Builders.RenderFade | logic/ffmpeg_logic.py:148 | the filter text splits at ',' into a fade-in from 0 with the fade-in length and a fade-out with its start and length, each printed by `str()`, whenever the rendered floats hold no ',' |
| Builders.FadePlan | logic/ffmpeg_logic.py:146-149 | a fade is planned exactly when the duration exceeds fade-in plus fade-out; the fade-out then ends at the video's end and starts after the fade-in ends, and its start is an int only when the duration and the fade-out length both are |
| Builders.MixedFadePlan | logic/ffmpeg_logic.py:81-148 | 300 frames at 30.0 per second last 10.0 seconds, so an int 1 fade-in and a float 1.0 fade-out fit and the fade-out starts at the float 9.0 |
| Builders.MixedFadeText | logic/ffmpeg_logic.py:146-149 | with the int 1 as fade-in (a blank field in the tabs) and the float 1.0 as fade-out, 300 frames at 30 give `fade=t=in:st=0:d=1,fade=t=out:st=9.0:d=1.0` |
| Builders.SequencePattern | logic/ffmpeg_logic.py:104 | the input pattern ends in `{prefix}%0{width}d.png`, with `str` of the digit count as the width, and lies in the folder when the prefix is relative |
| Builders.VideoCandidate | logic/ffmpeg_logic.py:100 | the output path before the uniqueness step ends in `{prefix}video.{ext}` and lies in the folder when the prefix is relative |
| Builders.SequenceMatch | logic/ffmpeg_logic.py:67-72 | no match for an empty listing, nor when the first sorted name has no '_' at index 1 or later with no newline anywhere before it and a digit right after it; otherwise the `(.+_)(\d+)` match of that name |
| Builders.VideoPart | logic/ffmpeg_logic.py:105-149 | image input, audio input when given, the six video options, then `-vf` and the filter when one is planned |
| Builders.AssembleImageCommand | logic/ffmpeg_logic.py:105-154 | the argument list is, in order: image input, audio input when given, the six video options, `-vf` when a fade is planned, the AAC options when audio is given, the output path |
| Builders.SequenceCommand | logic/ffmpeg_logic.py:100-154 | once the first name has matched, the arguments are the framerate and `%0Nd` pattern input, the audio input, the table's codec and pixel format, the fade filter when the frames' duration allows it, the AAC options, and the output path |
| Builders.ConvertImagesToVideoCommand | logic/ffmpeg_logic.py:46-159 | fails (`[]`, `""`) exactly when `SequenceMatch` finds nothing, that is for an empty listing or a first sorted name with no `(.+_)(\d+)` match; otherwise it builds the layout above with the pattern from the match, codec and pixel format from the table, and a fresh output path |
| Builders.PatternFollowsDigitWidth | logic/ffmpeg_logic.py:70-104 | a first name `{prefix}{digits}.png` gives the input pattern `{prefix}%0{len(digits)}d.png`, whatever the digit count |
| Builders.DerivedOutput | logic/ffmpeg_logic.py:250-251 | the derived output path does not exist yet |
| Builders.DerivedOutputShape | logic/ffmpeg_logic.py:250-251 | the derived output is `{stem}{suffix}.{fmt}` when that is free, otherwise `{stem}{suffix}_{t}.{fmt}` for some clock reading `t` |
| Builders.AddAudioToVideoCommand | logic/ffmpeg_logic.py:163-189 | the video and audio inputs in order, video stream copied, AAC audio cut to the shortest stream, and an output built on the `rsplit` root plus `_CON_AUDIO` that does not exist |
| Builders.Values | logic/ffmpeg_logic.py:229 | `map(int, parts)` gives one value per field, each the value of its numeral |
| Builders.Reverse | logic/ffmpeg_logic.py:230 | `reversed(parts)` has as many fields as `parts`; `Builders.ReverseSnoc` and `Builders.ReverseReverse` pin their order |
| Builders.ReverseSnoc | logic/ffmpeg_logic.py:230 | reversing fields with one more field at the end puts that field first |
| Builders.ReverseReverse | logic/ffmpeg_logic.py:230 | reversing twice gives back the fields |
| Builders.PlaceValueShift | logic/ffmpeg_logic.py:230 | the place-value sum from position i is 60 times the sum from i-1 of the list without its first element |
| Builders.PlaceValueIsBase60 | logic/ffmpeg_logic.py:230 | `sum(x * 60 ** i for i, x in enumerate(reversed(parts)))` equals reading the fields as base-60 digits, most significant first |
| Builders.ParseTimeToSeconds | logic/ffmpeg_logic.py:224-231 | `parse_time_to_seconds` reads every time text as its fields in base 60, most significant first, a plain numeral being the one-field case |
| Builders.HoursMinutesSeconds | logic/ffmpeg_logic.py:224-231 | "h:m:s" is read as h·3600 + m·60 + s seconds |
| Builders.TrimLength | logic/ffmpeg_logic.py:212-219 | with an end time, `-t` is a canonical numeral d with start + d = end, or 0 when the end is before the start; otherwise it is the duration text when given, else there is no `-t` |
| Builders.CutVideoCommand | logic/ffmpeg_logic.py:191-222 | `-ss start -i video`, then `-t` exactly when a length is known, then stream copy to a fresh `{root}_cut.mp4` |
| Builders.LimitKpsCommand | logic/ffmpeg_logic.py:234-264 | libx264 at the given bitrate and maxrate into a fresh `{root}_limited.{fmt}` |
| Builders.ScaleVideoCommand | logic/ffmpeg_logic.py:266-302 | the scale filter carries width and height as typed, then preset and CRF, into a fresh `{root}_scaled.{fmt}` |
| Builders.CropFilter | logic/ffmpeg_logic.py:335 | the crop filter splits at ':' into exactly four fields: `crop=iw-` with `str` of left+right, `ih-` with `str` of top+bottom, `str` of left and `str` of top, for any integers |
| Builders.CropFilterReadsBack | logic/ffmpeg_logic.py:335 | for margins that are not negative those fields are decimal numerals whose values are left+right, top+bottom, left and top |
| Builders.CropTwentyTopTenBottom | logic/ffmpeg_logic.py:335 | cropping 20 from the top and 10 from the bottom gives "crop=iw-0:ih-30:0:20" |
| Builders.FilterCommand | logic/ffmpeg_logic.py:337-343 | `ffmpeg -y -i <input> -vf <filter> <output>` |
| Builders.CropVideoCommand | logic/ffmpeg_logic.py:304-346 | the crop filter applied to the input, into a fresh `{root}_cropped.{fmt}` |
| Builders.RemoveAudioCommand | logic/ffmpeg_logic.py:348-376 | video copied and audio dropped (`-an`) into a fresh `{root}_SIN_AUDIO.{fmt}` |
| Builders.ReplaceAudioCommand | logic/ffmpeg_logic.py:379-413 | video stream 0 copied, audio taken from input 1 and AAC-encoded, cut to the shortest stream, into a fresh `{root}_REPLACE_AUDIO.{fmt}` |
| LegacyBuilder.LegacyPattern | ffmpeg_logic.py:45 | the input pattern ends in `{prefix}%04d.png`, whatever the digit count, and lies in the folder when the prefix is relative |
| LegacyBuilder.LegacyOutput | ffmpeg_logic.py:38 | the output path is `{folder}/video_output.{fmt}`, without the '/' when the folder is empty or ends in one |
| LegacyBuilder.LegacyAssemble | ffmpeg_logic.py:41-66 | image input, audio input when given, libx264 in yuv420p, the AAC options when audio is given, the output: 18 arguments with audio, 11 without |
| LegacyBuilder.LegacyConvertCommand | ffmpeg_logic.py:23-68 | fails exactly when `detect_image_prefix` finds nothing; otherwise the layout above with the four-digit pattern on the detected prefix |
| LegacyBuilder.LegacyOutputIsFixed | ffmpeg_logic.py:38 | any two listings that build a command write the same path: there is no uniqueness step |
| LegacyBuilder.FourDigitPrefixOfNumberedName | ffmpeg_logic.py:15-19 | `{prefix}{digits}{ext}` with at least four digits and no '_' in the extension is detected with exactly that prefix |
| LegacyBuilder.LegacyInput | ffmpeg_logic.py:45 | the image input is the `%04d` pattern on the detected prefix |
| LegacyBuilder.LegacyPatternIgnoresWidth | ffmpeg_logic.py:45 | on the same folder both builders find the same prefix, but with names of five or more digits the legacy pattern still asks for four |
| LegacyBuilder.NoFourDigitSplit | ffmpeg_logic.py:15 | a name with one '_' and three digits after it has no four-digit split |
| LegacyBuilder.ThreeDigitNamesRejected | ffmpeg_logic.py:15-20 | three-digit names defeat the legacy detection, while the newer builder matches them |
| Worker.TranslateNewlines | logic/ffmpeg_worker.py:50 | text mode leaves no '\r', never lengthens the text, and leaves text without '\r' unchanged |
| Worker.TranslateAppend | logic/ffmpeg_worker.py:50 | text cut anywhere but inside a "\r\n" pair translates piece by piece |
| Worker.CrLfBecomesNewline | logic/ffmpeg_worker.py:50 | each "\r\n" becomes a single '\n', the text on either side translated on its own |
| Worker.LoneCrBecomesNewline | logic/ffmpeg_worker.py:50 | each '\r' not followed by '\n' becomes a '\n', so FFmpeg's '\r'-separated status lines stay apart |
| Worker.StatusLineIsALine | logic/ffmpeg_worker.py:50 | a status line ending in '\r' reads as a line of its own |
| Worker.ReadLine | logic/ffmpeg_worker.py:63 | `readline` returns text up to and including the first '\n', or all that is left; line plus remainder is the stream, and it is "" only at the end |
| Worker.ConcatAppend | logic/ffmpeg_worker.py:62-65 | the text of two runs of lines read one after the other is the concatenation of their texts |
| Worker.Lines | logic/ffmpeg_worker.py:62-65 | the lines the loop reads before `readline` returns "" are all non-empty |
| Worker.LinesRejoin | logic/ffmpeg_worker.py:62-65 | those lines, put back together, are the whole stream |
| Worker.SpaceRunLength | logic/ffmpeg_worker.py:71 | the greedy `\s*` takes the whole run of Python whitespace, up to the end or a non-space character |
| Worker.FrameAtIsPatternMatch | logic/ffmpeg_worker.py:71 | `frame=\s*(\d+)` matches at a position exactly when the key is there, followed by some whitespace and then a digit |
| Worker.FirstFrameFrom | logic/ffmpeg_worker.py:71 | `re.search` returns the leftmost position where the pattern matches, or none when it matches nowhere |
| Worker.FrameDigits | logic/ffmpeg_worker.py:71-73 | group 1 is the whole digit run after the whitespace, a numeral |
| Worker.FrameNumber | logic/ffmpeg_worker.py:71-73 | there is no frame number exactly when the pattern matches nowhere in the line |
| Worker.FrameNumberIsLeftmost | logic/ffmpeg_worker.py:71-73 | the number is read at the leftmost match, whatever later matches hold |
| Worker.StatusLineReportsFrame | logic/ffmpeg_worker.py:71-73 | "frame=" followed by whitespace, the decimal text of n and a non-digit reports frame n |
| Worker.Percent | logic/ffmpeg_worker.py:74 | the percentage is the greatest r with r·total ≤ 100·current |
| Worker.PercentAtMostHundred | logic/ffmpeg_worker.py:74 | the percentage is at most 100 exactly when current·100 < 101·total, so a frame up to the total never passes 100 |
| Worker.PercentOfTotal | logic/ffmpeg_worker.py:74 | the last frame of the estimate shows exactly 100 |
| Worker.PercentMonotone | logic/ffmpeg_worker.py:74 | a later frame never shows a smaller percentage |
| Worker.PercentNotClamped | logic/ffmpeg_worker.py:74-75 | 150 frames of an estimated 100 are emitted as 150 |
| Worker.LineProgress | logic/ffmpeg_worker.py:70-75 | a line emits one value exactly when it carries a frame number, and none otherwise; the value is 100 times that frame number over the total, rounded down |
| Worker.StatusLineProgress | logic/ffmpeg_worker.py:70-75 | a status line "frame=" with whitespace, the decimal text of n and a non-digit emits exactly the percentage of n |
| Worker.ProgressOf | logic/ffmpeg_worker.py:62-75 | the loop emits at most one value per line |
| Worker.ProgressAppend | logic/ffmpeg_worker.py:62-75 | the values for two runs of lines are those of the first run followed by those of the second |
| Worker.NoFrameNoProgress | logic/ffmpeg_worker.py:72-75 | lines without a frame number emit nothing |
| Worker.ReadLinesStep | logic/ffmpeg_worker.py:62-65 | one pass of the loop adds the line read to the lines consumed, and the remainder's lines complete them |
| Worker.ProgressStep | logic/ffmpeg_worker.py:70-75 | one pass of the loop adds the line's value, if any, after the values already emitted |
| Worker.ReadStderr | logic/ffmpeg_worker.py:62-75 | the loop reads exactly the lines of the translated stream and emits, in order, the value of each line that has a frame number; afterwards nothing is left of the stream |
| Worker.Finish | logic/ffmpeg_worker.py:77-96 | success exactly when the return code is 0; the message is then the output path, otherwise the error text, or "Error en FFmpeg." when that is empty |
| Worker.Run | logic/ffmpeg_worker.py:42-96 | the values emitted are those of every line of the translated stderr, in order; success exactly when the return code is 0; on failure the message is always "Error en FFmpeg.", because `proc.stderr.read()` gets what the loop left of the stream, which is nothing |
| Worker.ErrorTextIsLost | logic/ffmpeg_worker.py:81-82 | with stderr "Invalid data\n" and return code 1, the text is there but the message is the fixed one; the corrected loop reports the text |
| Worker.RunReportingErrors | logic/ffmpeg_worker.py:62-96 | the same loop and progress, but on failure the message is the stderr text it read, or the fixed message when stderr was empty |

## Left out

- The GUI (`gui/`, `main.py`, `ffmpeg_gui.py`) and `setup.py`. They build
  requests and show results. They are not part of this model. `ffmpeg_gui.py`
  also carries its own copy of a worker, which is not modelled either.
- The cut tab's conversion of frame numbers to seconds is GUI code and is
  not part of this model. That tab also passes a `cut_mode` keyword which
  `cut_video_command` does not accept. `Builders.CutVideoCommand` follows
  the builder's own signature.
- Process, thread and I/O plumbing is not modelled. This covers `subprocess.Popen`, `proc.wait`, the
  Qt signals and thread, the Windows `CREATE_NO_WINDOW` flag, and the
  optional `ffmpeg.log` file.
- The `print` of the sequence command is debugging output.
- Cancellation is not modelled: the code has no cancel path.
- Windows paths (`ntpath`) are not modelled. `Paths.Join` and
  `Paths.SplitExt` follow `posixpath`.
- `Builders.RenderFade`: Python's float formatting is the parameter
  `showFloat`, so for float numbers the fade text is exact only up to that
  rendering. Ints print exactly.
- `Worker.Run` and `Worker.RunReportingErrors` assume that the process
  started and that its stderr decoded. In the source, `run()` ends with an
  exception and emits no final signal when `subprocess.Popen` raises (for
  example, no `ffmpeg` on the path, `logic/ffmpeg_worker.py:46-53`) or when a
  `readline` meets bytes the locale cannot decode (`UnicodeDecodeError`,
  line 63). The model always returns an `Outcome`.
- `Builders.SequenceDuration`: `float(fps)` parsing is the input
  `fpsValue`, and the division is on exact reals, not IEEE doubles.
- `Worker.Percent`: it computes `int(current / total * 100)` exactly, with
  no floating-point rounding. Python's doubles can land one lower, for
  example 29 of 100 frames gives 28.
- `Worker.Percent` requires a positive total. With `total_frames == 0`
  the source raises `ZeroDivisionError` on the first frame line.
- `Worker.Run` and `Worker.RunReportingErrors` take stderr as one finished
  text. They do not interleave reads with the process's writes.
- `Text.IsDigit` and `Text.Lower` are ASCII only. Python's `\d`, `int()` and
  `str.lower()` also accept other Unicode digits and letters.
- `Builders.TrimLength`, `Builders.CutVideoCommand` and
  `Builders.ParseTimeToSeconds` require time texts whose ':'-fields are
  plain ASCII numerals. The source lets `int()` also take signs, surrounding
  whitespace and underscores. On other text it raises `ValueError`, and that
  raise is not modelled.
- Every builder that calls `get_unique_filename` requires `Resolvable`.
  The source loops until the clock gives a free name, and that wait is not
  modelled.

## Findings

| source | as written | input that shows it | evidently intended | confidence | as-written member | corrected member |
|---|---|---|---|---|---|---|
| logic/ffmpeg_worker.py:62-96 | the loop reads stderr with `readline` until it returns "", then the failure branch reports `proc.stderr.read()`, which is always "" at that point, so every failure shows "Error en FFmpeg." | return code 1 with stderr "Invalid data\n" | report FFmpeg's diagnostic text on failure | not executed | Worker.Run, Worker.ErrorTextIsLost | Worker.RunReportingErrors |

=== FILE: builders.dfy ===
/** The command builders of logic/ffmpeg_logic.py. Each turns typed
    parameters into an argument vector for the external tool plus the output
    path it writes; the directory listing, the set of existing paths and the
    clock readings are inputs instead of system calls. */
module Builders {
  import opened Common
  import opened Text
  import opened Paths
  import opened ImagePattern

  // ---------------------------------------------------------------------
  // Format selection

  /** Container extension chosen from the format label. */
  function OutputExtension(userFormat: string): (ext: string)
    ensures ext in {"mp4", "avi", "mkv", "mov"}
    ensures StartsWith(Lower(userFormat), "mp4") ==> ext == "mp4"
    ensures Lower(userFormat) in {"avi", "mkv", "mov"} ==> ext == Lower(userFormat)
    ensures ext != "mp4" ==> ext == Lower(userFormat)
  {
    var f := Lower(userFormat);
    if StartsWith(f, "mp4") then "mp4"
    else if f == "avi" then "avi"
    else if f == "mkv" then "mkv"
    else if f == "mov" then "mov"
    else "mp4"
  }

  /** Codec and default pixel format of each label the builder recognises;
      every other label encodes with libx264 in 8-bit yuv420p. */
  const EncoderTable: map<string, (string, string)> := map[
    "mp4 (H.265 8-bit)" := ("libx265", "yuv420p"),
    "mp4 (H.265 10-bit)" := ("libx265", "yuv420p10le"),
    "mp4 (H.265 16-bit)" := ("libx265", "yuv420p16le"),
    "mp4 (H.264 10-bit)" := ("libx264", "yuv420p10le"),
    "mp4 (H.264 16-bit)" := ("libx264", "yuv420p16le")
  ]

  function Encoder(userFormat: string): (e: (string, string))
    ensures e.0 == "libx265" <==> userFormat in {"mp4 (H.265 8-bit)", "mp4 (H.265 10-bit)", "mp4 (H.265 16-bit)"}
    ensures e.0 != "libx265" ==> e.0 == "libx264"
    ensures e.1 == "yuv420p10le" <==> userFormat in {"mp4 (H.265 10-bit)", "mp4 (H.264 10-bit)"}
    ensures e.1 == "yuv420p16le" <==> userFormat in {"mp4 (H.265 16-bit)", "mp4 (H.264 16-bit)"}
    ensures e.1 !in {"yuv420p10le", "yuv420p16le"} ==> e.1 == "yuv420p"
  {
    if userFormat in EncoderTable then EncoderTable[userFormat] else ("libx264", "yuv420p")
  }

  /** The `-pix_fmt` value: the caller's choice when given, else the label's
      bit-depth default. */
  function ChosenPixFmt(userFormat: string, pixFmt: Option<string>): (f: string)
    ensures Truthy(pixFmt) ==> f == pixFmt.value
    ensures !Truthy(pixFmt) ==> f in {"yuv420p", "yuv420p10le", "yuv420p16le"} && f == Encoder(userFormat).1
  {
    if Truthy(pixFmt) then pixFmt.value else Encoder(userFormat).1
  }

  /** The `-c:v … -pix_fmt … -crf …` options, by the builder's chain of
      label comparisons; they agree with the encoder table. */
  function VideoOptions(userFormat: string, pixFmt: Option<string>, crf: string): (opts: seq<string>)
    ensures opts == ["-c:v", Encoder(userFormat).0, "-pix_fmt", ChosenPixFmt(userFormat, pixFmt), "-crf", crf]
  {
    var chosen := (d: string) => if Truthy(pixFmt) then pixFmt.value else d;
    if userFormat == "mp4 (H.265 8-bit)" then ["-c:v", "libx265", "-pix_fmt", chosen("yuv420p"), "-crf", crf]
    else if userFormat == "mp4 (H.265 10-bit)" then ["-c:v", "libx265", "-pix_fmt", chosen("yuv420p10le"), "-crf", crf]
    else if userFormat == "mp4 (H.265 16-bit)" then ["-c:v", "libx265", "-pix_fmt", chosen("yuv420p16le"), "-crf", crf]
    else if userFormat == "mp4 (H.264 10-bit)" then ["-c:v", "libx264", "-pix_fmt", chosen("yuv420p10le"), "-crf", crf]
    else if userFormat == "mp4 (H.264 16-bit)" then ["-c:v", "libx264", "-pix_fmt", chosen("yuv420p16le"), "-crf", crf]
    else if userFormat == "mp4 (H.264 8-bit)" || StartsWith(Lower(userFormat), "mp4") then
      ["-c:v", "libx264", "-pix_fmt", chosen("yuv420p"), "-crf", crf]
    else ["-c:v", "libx264", "-pix_fmt", chosen("yuv420p"), "-crf", crf]
  }

  /** H.265 is chosen exactly for the three H.265 labels. */
  lemma HevcExactlyForHevcLabels(userFormat: string, pixFmt: Option<string>, crf: string)
    ensures VideoOptions(userFormat, pixFmt, crf)[1] == "libx265"
        <==> userFormat in {"mp4 (H.265 8-bit)", "mp4 (H.265 10-bit)", "mp4 (H.265 16-bit)"}
  {
  }

  // ---------------------------------------------------------------------
  // Image sequence to video

  /** A sequence-to-video request as the conversion tab passes it.
      `fpsValue` is what `float(fps)` yields, `None` when it raises. */
  datatype ImageJob = ImageJob(
    folder: string,
    fps: string,
    fpsValue: Option<real>,
    audio: Option<string>,
    userFormat: string,
    crf: string,
    fadeIn: Number,
    fadeOut: Number,
    pixFmt: Option<string>)

  /** Files the builder counts as frames: `.png` (any case) and starting
      with the detected prefix. */
  predicate IsSequenceImage(name: string, prefix: string) {
    EndsWith(Lower(name), ".png") && StartsWith(name, prefix)
  }

  function SequenceImages(listing: seq<string>, prefix: string): (images: seq<string>)
    ensures |images| <= |listing|
    ensures forall f :: f in images <==> f in listing && IsSequenceImage(f, prefix)
    ensures forall f :: multiset(images)[f] == if IsSequenceImage(f, prefix) then multiset(listing)[f] else 0
  {
    if |listing| == 0 then []
    else
      var rest := SequenceImages(listing[1..], prefix);
      assert listing == [listing[0]] + listing[1..];
      assert multiset(listing) == multiset([listing[0]]) + multiset(listing[1..]);
      if IsSequenceImage(listing[0], prefix) then
        assert multiset([listing[0]] + rest) == multiset([listing[0]]) + multiset(rest);
        [listing[0]] + rest
      else rest
  }

  // ---------------------------------------------------------------------
  // Python numbers in the fade filter

  /** A Python number as the builder receives or computes it: an `int`
      (the tabs' fade length 1 when `float` fails, the duration 0 of a
      non-positive rate) or a `float`. `str()` prints them differently:
      `1` against `1.0`. */
  datatype Number = Int(i: int) | Float(x: real) {
    function Value(): real {
      match this
      case Int(i) => i as real
      case Float(x) => x
    }
  }

  /** Python's `a - b`: an int only when both operands are ints. */
  function Minus(a: Number, b: Number): (d: Number)
    ensures d.Value() == a.Value() - b.Value()
    ensures d.Int? <==> a.Int? && b.Int?
  {
    if a.Int? && b.Int? then Int(a.i - b.i) else Float(a.Value() - b.Value())
  }

  /** `str(n)`: an int prints as `str(int)`, digits after an optional '-'
      and never a '.'; a float prints as `showFloat`, Python's float
      rendering, which the model takes as a parameter. */
  function Show(n: Number, showFloat: real -> string): (s: string)
    ensures n.Int? ==> s == IntToString(n.i) && '.' !in s && ',' !in s
    ensures n.Float? ==> s == showFloat(n.x)
  {
    match n
    case Int(i) =>
      IntTextHasNo(i, '.');
      IntTextHasNo(i, ',');
      IntToString(i)
    case Float(x) => showFloat(x)
  }

  /** Seconds of video for `count` frames: a float for a positive rate (an
      unparsable one counts as 30.0), the int 0 otherwise. */
  function SequenceDuration(count: nat, fpsValue: Option<real>): (d: Number)
    ensures fpsValue.GetOr(30.0) > 0.0 ==> d.Float? && d.x >= 0.0 && d.x * fpsValue.GetOr(30.0) == count as real
    ensures fpsValue.GetOr(30.0) <= 0.0 ==> d == Int(0)
  {
    var fps := fpsValue.GetOr(30.0);
    if fps > 0.0 then Float(count as real / fps) else Int(0)
  }

  /** A fade-in from the start and a fade-out that starts `outStart`. */
  datatype Fade = Fade(inDuration: Number, outStart: Number, outDuration: Number)

  /** The fade filter is planned only when both fades fit in the video; the
      fade-out start is an int only when the duration and the fade-out
      length both are. */
  function FadePlan(duration: Number, fadeIn: Number, fadeOut: Number): (f: Option<Fade>)
    ensures f.Some? <==> duration.Value() > fadeIn.Value() + fadeOut.Value()
    ensures f.Some? ==> f.value.inDuration == fadeIn && f.value.outDuration == fadeOut
    ensures f.Some? ==> f.value.outStart.Value() + fadeOut.Value() == duration.Value()
                        && f.value.outStart.Value() > fadeIn.Value()
    ensures f.Some? ==> (f.value.outStart.Int? <==> duration.Int? && fadeOut.Int?)
  {
    if duration.Value() > fadeIn.Value() + fadeOut.Value() then Some(Fade(fadeIn, Minus(duration, fadeOut), fadeOut))
    else None
  }

  /** The `-vf` text, each number printed by `str()`. Split at ',' it is a
      fade-in from 0 and a fade-out, each with its numbers, whenever the
      rendered floats hold no ','. */
  function RenderFade(f: Fade, showFloat: real -> string): (vf: string)
    ensures var i, s, o := Show(f.inDuration, showFloat), Show(f.outStart, showFloat), Show(f.outDuration, showFloat);
      ',' !in i && ',' !in s && ',' !in o ==>
      Split(vf, ',') == ["fade=t=in:st=0:d=" + i, "fade=t=out:st=" + s + ":d=" + o]
  {
    var fadeIn := "fade=t=in:st=0:d=" + Show(f.inDuration, showFloat);
    var fadeOut := "fade=t=out:st=" + Show(f.outStart, showFloat) + ":d=" + Show(f.outDuration, showFloat);
    FadeTextsHaveNoComma();
    TwoFields(fadeIn, fadeOut, ',');
    fadeIn + "," + fadeOut
  }

  /** The tabs' mixed case: fade-in left blank (the int 1), fade-out typed
      "1" (the float 1.0), 300 frames at 30 per second. With Python's
      rendering of 9.0 and 1.0 the filter is
      `fade=t=in:st=0:d=1,fade=t=out:st=9.0:d=1.0`. */
  lemma MixedFadeText(showFloat: real -> string)
    requires showFloat(9.0) == "9.0" && showFloat(1.0) == "1.0"
    ensures var f := FadePlan(SequenceDuration(300, Some(30.0)), Int(1), Float(1.0));
      f.Some? && RenderFade(f.value, showFloat) == "fade=t=in:st=0:d=1,fade=t=out:st=9.0:d=1.0"
  {
    MixedFadePlan();
    IntOneShowsAsOne(showFloat);
    FadeTextOf(Fade(Int(1), Float(9.0), Float(1.0)), showFloat, "1", "9.0", "1.0");
    MixedFadeLiteral();
  }

  lemma MixedFadeLiteral()
    ensures "fade=t=in:st=0:d=" + "1" + "," + ("fade=t=out:st=" + "9.0" + ":d=" + "1.0")
         == "fade=t=in:st=0:d=1,fade=t=out:st=9.0:d=1.0"
  {
  }

  /** 300 frames at 30.0 per second last 10.0 seconds, so a 1 + 1.0 second
      fade fits and the fade-out starts at 9.0. */
  lemma MixedFadePlan()
    ensures FadePlan(SequenceDuration(300, Some(30.0)), Int(1), Float(1.0)) == Some(Fade(Int(1), Float(9.0), Float(1.0)))
  {
    assert SequenceDuration(300, Some(30.0)) == Float(10.0);
  }


  lemma FadeTextOf(f: Fade, showFloat: real -> string, i: string, s: string, o: string)
    requires Show(f.inDuration, showFloat) == i && Show(f.outStart, showFloat) == s
    requires Show(f.outDuration, showFloat) == o
    ensures RenderFade(f, showFloat) == "fade=t=in:st=0:d=" + i + "," + ("fade=t=out:st=" + s + ":d=" + o)
  {
  }

  lemma IntOneShowsAsOne(showFloat: real -> string)
    ensures Show(Int(1), showFloat) == "1"
  {
    assert IntToString(1) == NatToString(1) == [DigitChar(1)] == "1";
  }


  lemma FadeTextsHaveNoComma()
    ensures ',' !in "fade=t=in:st=0:d=" && ',' !in "fade=t=out:st=" && ',' !in ":d="
  {
    assert forall k :: 0 <= k < |"fade=t=in:st=0:d="| ==> "fade=t=in:st=0:d="[k] != ',';
    assert forall k :: 0 <= k < |"fade=t=out:st="| ==> "fade=t=out:st="[k] != ',';
  }

  lemma TwoFields(a: string, b: string, sep: char)
    ensures sep !in a && sep !in b ==> Split(a + [sep] + b, sep) == [a, b]
  {
    if sep !in a && sep !in b {
      SplitCons(a, b, sep);
      SplitNoSep(b, sep);
    }
  }

  /** `{prefix}%0{width}d.png` inside the folder. */
  function SequencePattern(folder: string, m: NumberedName): (p: string)
    ensures EndsWith(p, m.prefix + "%0" + NatToString(|m.digits|) + "d.png")
    ensures !StartsWith(m.prefix, "/") ==> StartsWith(p, folder)
  {
    RelativeAppend(m.prefix, "%0" + NatToString(|m.digits|) + "d.png");
    Join(folder, m.prefix + "%0" + NatToString(|m.digits|) + "d.png")
  }

  /** `{prefix}video.{ext}` inside the folder, before the uniqueness step. */
  function VideoCandidate(job: ImageJob, m: NumberedName): (c: string)
    ensures EndsWith(c, m.prefix + "video." + OutputExtension(job.userFormat))
    ensures !StartsWith(m.prefix, "/") ==> StartsWith(c, job.folder)
  {
    RelativeAppend(m.prefix, "video." + OutputExtension(job.userFormat));
    Join(job.folder, m.prefix + "video." + OutputExtension(job.userFormat))
  }

  /** The `(.+_)(\d+)` match on the first sorted name: none for an empty
      listing or a name with no admissible '_' before a digit. */
  function SequenceMatch(listing: seq<string>): (r: Option<NumberedName>)
    ensures |listing| == 0 ==> r.None?
    ensures |listing| > 0 ==> (r.None? <==> forall j :: !SplitsAt(FirstName(listing), j, 1))
    ensures r.Some? ==> r == MatchNumbered(FirstName(listing))
  {
    if |listing| == 0 then None
    else
      var name := FirstName(listing);
      var m := MatchNumbered(name);
      assert name == FirstName(listing);
      assert (forall j :: !SplitsAt(name, j, 1)) <==> (forall j :: !SplitsAt(FirstName(listing), j, 1));
      m
  }

  predicate ConvertResolvable(job: ImageJob, listing: seq<string>, existing: set<string>, clock: seq<nat>) {
    SequenceMatch(listing).Some? ==> Resolvable(VideoCandidate(job, SequenceMatch(listing).value), existing, clock)
  }

  /** The inputs, the video options and the fade filter, in that order. */
  function VideoPart(head: seq<string>, audio: Option<string>, opts: seq<string>, vf: Option<string>)
    : (part: seq<string>)
    requires |head| == 6 && |opts| == 6
    ensures
      var v := if Truthy(audio) then 8 else 6;
      && |part| == v + 6 + (if vf.Some? then 2 else 0)
      && part[..6] == head
      && (Truthy(audio) ==> part[6..8] == ["-i", audio.value])
      && part[v..v + 6] == opts
      && (vf.Some? ==> part[v + 6..v + 8] == ["-vf", vf.value])
  {
    var v := if Truthy(audio) then 8 else 6;
    var withAudio := if Truthy(audio) then head + ["-i", audio.value] else head;
    assert |withAudio| == v && withAudio[..6] == head;
    var encoded := withAudio + opts;
    assert encoded[..v] == withAudio && encoded[v..] == opts;
    assert encoded[..6] == head && encoded[v..v + 6] == opts;
    assert Truthy(audio) ==> encoded[6..8] == withAudio[6..8] == ["-i", audio.value];
    var faded := if vf.Some? then encoded + ["-vf", vf.value] else encoded;
    assert faded[..v + 6] == encoded;
    assert vf.Some? ==> faded[v + 6..] == ["-vf", vf.value];
    faded
  }

  /** The sequence command in the builder's order: image input, optional
      audio input, video options, optional fade filter, optional audio
      options, output. */
  function AssembleImageCommand(head: seq<string>, audio: Option<string>, opts: seq<string>,
                                vf: Option<string>, output: string)
    : (r: BuiltCommand)
    requires |head| == 6 && head[0] == "ffmpeg" && head[1] == "-y" && |opts| == 6
    ensures
      var a := Truthy(audio);
      var v := if a then 8 else 6;
      var n := |r.args|;
      && Invokes(r.args, r.output) && r.output == output
      && n == v + 6 + (if vf.Some? then 2 else 0) + (if a then 5 else 0) + 1
      && r.args[..6] == head
      && (a ==> r.args[6..8] == ["-i", audio.value] && r.args[n - 6..n - 1] == AacOptions)
      && r.args[v..v + 6] == opts
      && (vf.Some? ==> r.args[v + 6..v + 8] == ["-vf", vf.value])
  {
    var faded := VideoPart(head, audio, opts, vf);
    var m := |faded|;
    var mixed := if Truthy(audio) then faded + AacOptions else faded;
    var args := mixed + [output];
    assert args[..m] == faded;
    assert Truthy(audio) ==> args[m..|mixed|] == AacOptions;
    BuiltCommand(args, output)
  }

  /** The sequence command once the first name has matched as `m`, with
      `imageCount` frames and the output path chosen. */
  function SequenceCommand(job: ImageJob, m: NumberedName, imageCount: nat, output: string, showFloat: real -> string)
    : (r: BuiltCommand)
    ensures
      var a := Truthy(job.audio);
      var fade := FadePlan(SequenceDuration(imageCount, job.fpsValue), job.fadeIn, job.fadeOut);
      var v := if a then 8 else 6;
      var n := |r.args|;
      && Invokes(r.args, r.output) && r.output == output
      && n == v + 6 + (if fade.Some? then 2 else 0) + (if a then 5 else 0) + 1
      && r.args[..6] == ["ffmpeg", "-y", "-framerate", job.fps, "-i", SequencePattern(job.folder, m)]
      && (a ==> r.args[6..8] == ["-i", job.audio.value] && r.args[n - 6..n - 1] == AacOptions)
      && r.args[v..v + 6] == ["-c:v", Encoder(job.userFormat).0, "-pix_fmt", ChosenPixFmt(job.userFormat, job.pixFmt), "-crf", job.crf]
      && (fade.Some? ==> r.args[v + 6..v + 8] == ["-vf", RenderFade(fade.value, showFloat)])
  {
    var head := ["ffmpeg", "-y", "-framerate", job.fps, "-i", SequencePattern(job.folder, m)];
    var fade := FadePlan(SequenceDuration(imageCount, job.fpsValue), job.fadeIn, job.fadeOut);
    var vf :=
      match fade
      case Some(f) => Some(RenderFade(f, showFloat))
      case None => None;
    assert vf.Some? <==> fade.Some?;
    AssembleImageCommand(head, job.audio, VideoOptions(job.userFormat, job.pixFmt, job.crf), vf, output)
  }

  /** `convert_images_to_video_command`. */
  function ConvertImagesToVideoCommand(
    job: ImageJob, listing: seq<string>, existing: set<string>, clock: seq<nat>, showFloat: real -> string)
    : (r: BuiltCommand)
    requires ConvertResolvable(job, listing, existing, clock)
    ensures r == Failed <==> SequenceMatch(listing).None?
    ensures r != Failed ==>
      var m := SequenceMatch(listing).value;
      var a := Truthy(job.audio);
      var fade := FadePlan(SequenceDuration(|SequenceImages(listing, m.prefix)|, job.fpsValue), job.fadeIn, job.fadeOut);
      var v := if a then 8 else 6;
      var n := |r.args|;
      && Invokes(r.args, r.output)
      && n == v + 6 + (if fade.Some? then 2 else 0) + (if a then 5 else 0) + 1
      && r.args[..6] == ["ffmpeg", "-y", "-framerate", job.fps, "-i", SequencePattern(job.folder, m)]
      && (a ==> r.args[6..8] == ["-i", job.audio.value] && r.args[n - 6..n - 1] == AacOptions)
      && r.args[v..v + 6] == ["-c:v", Encoder(job.userFormat).0, "-pix_fmt", ChosenPixFmt(job.userFormat, job.pixFmt), "-crf", job.crf]
      && (fade.Some? ==> r.args[v + 6..v + 8] == ["-vf", RenderFade(fade.value, showFloat)])
      && r.output == UniquePath(VideoCandidate(job, m), existing, clock)
      && r.output !in existing
  {
    match SequenceMatch(listing)
    case None => Failed
    case Some(m) =>
      var output := UniquePath(VideoCandidate(job, m), existing, clock);
      SequenceCommand(job, m, |SequenceImages(listing, m.prefix)|, output, showFloat)
  }

  /** A folder whose first sorted name is `{prefix}{digits}.png` gets the
      pattern `{prefix}%0{len(digits)}d.png`, whatever the digit count. */
  lemma PatternFollowsDigitWidth(job: ImageJob, listing: seq<string>, prefix: string, digits: string)
    requires |listing| > 0 && FirstName(listing) == prefix + digits + ".png"
    requires |prefix| >= 2 && prefix[|prefix| - 1] == '_' && '\n' !in prefix
    requires IsNumeral(digits)
    ensures SequenceMatch(listing) == Some(NumberedName(prefix, digits))
    ensures SequencePattern(job.folder, SequenceMatch(listing).value)
         == Join(job.folder, prefix + "%0" + NatToString(|digits|) + "d.png")
  {
    NumberedNameIsMatched(prefix, digits, ".png");
  }

  // ---------------------------------------------------------------------
  // Derived output paths

  /** `{stem}{suffix}.{fmt}` made unique. */
  function DerivedOutput(stem: string, suffix: string, fmt: string, existing: set<string>, clock: seq<nat>): (out: string)
    requires Resolvable(stem + suffix + "." + fmt, existing, clock)
    ensures out !in existing
  {
    UniquePath(stem + suffix + "." + fmt, existing, clock)
  }

  /** The output keeps the stem and suffix: `{stem}{suffix}.{fmt}` when that
      is free, otherwise `{stem}{suffix}_{timestamp}.{fmt}` for the first
      clock reading that gives a free name. */
  lemma DerivedOutputShape(stem: string, suffix: string, fmt: string, existing: set<string>, clock: seq<nat>)
    requires |suffix| > 0 && suffix[|suffix| - 1] != '.' && suffix[|suffix| - 1] != '/'
    requires '.' !in fmt && '/' !in fmt
    requires Resolvable(stem + suffix + "." + fmt, existing, clock)
    ensures var out := DerivedOutput(stem, suffix, fmt, existing, clock);
      || (stem + suffix + "." + fmt !in existing && out == stem + suffix + "." + fmt)
      || (stem + suffix + "." + fmt in existing
          && exists k :: 0 <= k < |clock| && out == stem + suffix + "_" + NatToString(clock[k]) + "." + fmt)
  {
    var base := stem + suffix;
    var out := DerivedOutput(stem, suffix, fmt, existing, clock);
    if base + "." + fmt in existing {
      var k :| 0 <= k < |clock| && out == Stamped(base + "." + fmt, clock[k]);
      StampedOfStem(base, fmt, clock[k]);
    }
  }

  // ---------------------------------------------------------------------
  // Single-input builders

  /** `add_audio_to_video_command`; note the stem is `rsplit('.', 1)[0]`. */
  function AddAudioToVideoCommand(video: string, audio: string, outputFormat: string, existing: set<string>, clock: seq<nat>)
    : (r: BuiltCommand)
    requires Resolvable(RSplitRoot(video) + "_CON_AUDIO" + "." + outputFormat, existing, clock)
    ensures Invokes(r.args, r.output) && |r.args| == 14
    ensures r.args[2..6] == ["-i", video, "-i", audio]
    ensures r.args[6..8] == ["-c:v", "copy"] && r.args[8..13] == AacOptions
    ensures r.output == DerivedOutput(RSplitRoot(video), "_CON_AUDIO", outputFormat, existing, clock)
    ensures r.output !in existing
  {
    var output := DerivedOutput(RSplitRoot(video), "_CON_AUDIO", outputFormat, existing, clock);
    BuiltCommand(
      ["ffmpeg", "-y", "-i", video, "-i", audio, "-c:v", "copy", "-c:a", "aac", "-b:a", "192k", "-shortest", output],
      output)
  }

  /** `str.split(':')` pieces that are all numerals, as `int()` needs. */
  predicate IsTimeText(s: string) {
    var parts := Split(s, ':');
    forall k :: 0 <= k < |parts| ==> IsNumeral(parts[k])
  }

  /** The `int()` of each field. */
  function Values(parts: seq<string>): (xs: seq<nat>)
    requires forall k :: 0 <= k < |parts| ==> IsNumeral(parts[k])
    ensures |xs| == |parts|
    ensures forall k :: 0 <= k < |parts| ==> IsNumeral(parts[k]) && xs[k] == NumeralValue(parts[k])
  {
    if |parts| == 0 then []
    else
      assert IsNumeral(parts[0]);
      [NumeralValue(parts[0])] + Values(parts[1..])
  }

  /** `reversed(parts)`. */
  function Reverse(xs: seq<nat>): (ys: seq<nat>)
    ensures |ys| == |xs|
  {
    seq(|xs|, k requires 0 <= k < |xs| => xs[|xs| - 1 - k])
  }

  /** Appending a field puts it first in the reversed order. */
  lemma ReverseSnoc(xs: seq<nat>, x: nat)
    ensures Reverse(xs + [x]) == [x] + Reverse(xs)
  {
    var l, r := Reverse(xs + [x]), [x] + Reverse(xs);
    assert forall k :: 0 < k < |l| ==> l[k] == xs[|xs| - k] == r[k];
  }

  /** Reversing twice gives back the fields. */
  lemma ReverseReverse(xs: seq<nat>)
    ensures Reverse(Reverse(xs)) == xs
  {
    var r := Reverse(Reverse(xs));
    assert forall k :: 0 <= k < |xs| ==> r[k] == Reverse(xs)[|xs| - 1 - k] == xs[k];
  }

  function Pow(b: nat, e: nat): nat {
    if e == 0 then 1 else b * Pow(b, e - 1)
  }

  /** `sum(x * 60 ** i for i, x in enumerate(rev))` from index `i` on. */
  function PlaceValueSum(rev: seq<nat>, i: nat): nat
    requires i <= |rev|
    decreases |rev| - i
  {
    if i == |rev| then 0 else rev[i] * Pow(60, i) + PlaceValueSum(rev, i + 1)
  }

  /** Reading the fields as base-60 digits, most significant first. */
  function Base60(xs: seq<nat>): nat {
    if |xs| == 0 then 0 else Base60(xs[..|xs| - 1]) * 60 + xs[|xs| - 1]
  }

  lemma {:induction false} PlaceValueShift(rev: seq<nat>, i: nat)
    requires 1 <= i <= |rev|
    ensures PlaceValueSum(rev, i) == 60 * PlaceValueSum(rev[1..], i - 1)
    decreases |rev| - i
  {
    if i < |rev| {
      PlaceValueShift(rev, i + 1);
      var p := Pow(60, i - 1);
      assert Pow(60, i) == 60 * p;
      assert rev[i] * (60 * p) == 60 * (rev[i] * p);
    }
  }

  lemma {:induction false} PlaceValueIsBase60(xs: seq<nat>)
    ensures PlaceValueSum(Reverse(xs), 0) == Base60(xs)
  {
    if |xs| > 0 {
      var rev := Reverse(xs);
      var init := xs[..|xs| - 1];
      PlaceValueIsBase60(init);
      PlaceValueShift(rev, 1);
      assert rev[1..] == Reverse(init);
    }
  }

  /** `parse_time_to_seconds`: every time text is its fields read in base
      60, most significant first, a plain numeral being the one-field case. */
  function ParseTimeToSeconds(s: string): (seconds: nat)
    requires IsTimeText(s)
    ensures seconds == Base60(Values(Split(s, ':')))
  {
    if ':' in s then
      PlaceValueIsBase60(Values(Split(s, ':')));
      PlaceValueSum(Reverse(Values(Split(s, ':'))), 0)
    else
      assert Split(s, ':') == [s];
      assert Values([s]) == [NumeralValue(s)];
      assert [NumeralValue(s)][..0] == [];
      NumeralValue(s)
  }

  lemma NumeralHasNoColon(s: string)
    requires IsNumeral(s)
    ensures ':' !in s
  {
    assert forall k :: 0 <= k < |s| ==> s[k] != ':';
  }

  lemma SplitThreeFields(h: string, m: string, s: string)
    requires ':' !in h && ':' !in m && ':' !in s
    ensures Split(h + ":" + m + ":" + s, ':') == [h, m, s]
  {
    var parts := [h, m, s];
    assert parts[1..] == [m, s] && [m, s][1..] == [s];
    assert JoinWith([s], ':') == s;
    assert JoinWith([m, s], ':') == m + [':'] + s;
    assert JoinWith(parts, ':') == h + [':'] + (m + [':'] + s);
    assert h + ":" + m + ":" + s == h + [':'] + (m + [':'] + s);
    SplitJoin(parts, ':');
  }

  lemma Base60OfThree(a: nat, b: nat, c: nat)
    ensures Base60([a, b, c]) == a * 3600 + b * 60 + c
  {
    assert [a][..0] == [];
    assert Base60([a]) == a;
    assert [a, b][..1] == [a];
    assert Base60([a, b]) == a * 60 + b;
    assert [a, b, c][..2] == [a, b];
    assert Base60([a, b, c]) == (a * 60 + b) * 60 + c;
  }

  /** "h:m:s" is h hours, m minutes and s seconds. */
  lemma HoursMinutesSeconds(h: string, m: string, s: string)
    requires IsNumeral(h) && IsNumeral(m) && IsNumeral(s)
    ensures IsTimeText(h + ":" + m + ":" + s)
    ensures ParseTimeToSeconds(h + ":" + m + ":" + s)
         == NumeralValue(h) * 3600 + NumeralValue(m) * 60 + NumeralValue(s)
  {
    ThreeFieldValues(h, m, s);
    Base60OfThree(NumeralValue(h), NumeralValue(m), NumeralValue(s));
  }

  /** The fields of "h:m:s" are numerals whose values are those of h, m, s. */
  lemma ThreeFieldValues(h: string, m: string, s: string)
    requires IsNumeral(h) && IsNumeral(m) && IsNumeral(s)
    ensures IsTimeText(h + ":" + m + ":" + s)
    ensures Values(Split(h + ":" + m + ":" + s, ':')) == [NumeralValue(h), NumeralValue(m), NumeralValue(s)]
  {
    NumeralHasNoColon(h);
    NumeralHasNoColon(m);
    NumeralHasNoColon(s);
    SplitThreeFields(h, m, s);
    ValuesOfThree(h, m, s);
  }

  lemma ValuesOfThree(h: string, m: string, s: string)
    requires IsNumeral(h) && IsNumeral(m) && IsNumeral(s)
    ensures forall k :: 0 <= k < |[h, m, s]| ==> IsNumeral([h, m, s][k])
    ensures Values([h, m, s]) == [NumeralValue(h), NumeralValue(m), NumeralValue(s)]
  {
    var parts := [h, m, s];
    assert parts[0] == h && parts[1] == m && parts[2] == s;
    var xs := Values(parts);
    assert xs[0] == NumeralValue(h) && xs[1] == NumeralValue(m) && xs[2] == NumeralValue(s);
  }

  /** The `-t` value: from start and end when an end is given (never
      negative), else the duration text, else none. */
  function TrimLength(start: string, duration: Option<string>, end: Option<string>): (t: Option<string>)
    requires Truthy(end) ==> IsTimeText(start) && IsTimeText(end.value)
    ensures Truthy(end) ==> t.Some? && IsCanonicalNumeral(t.value)
    ensures Truthy(end) ==>
      var s, e, d := ParseTimeToSeconds(start), ParseTimeToSeconds(end.value), NumeralValue(t.value);
      (s <= e ==> s + d == e) && (e < s ==> d == 0)
    ensures !Truthy(end) && Truthy(duration) ==> t == duration
    ensures !Truthy(end) && !Truthy(duration) ==> t.None?
  {
    if Truthy(end) then
      var realDuration := ParseTimeToSeconds(end.value) - ParseTimeToSeconds(start);
      Some(NatToString(if realDuration > 0 then realDuration else 0))
    else if Truthy(duration) then duration
    else None
  }

  /** `cut_video_command`: always a `.mp4` output, whatever `outputFormat`. */
  function CutVideoCommand(
    video: string, start: string, duration: Option<string>, end: Option<string>, outputFormat: string,
    existing: set<string>, clock: seq<nat>)
    : (r: BuiltCommand)
    requires Truthy(end) ==> IsTimeText(start) && IsTimeText(end.value)
    requires Resolvable(SplitExt(video).0 + "_cut" + "." + "mp4", existing, clock)
    ensures var t := TrimLength(start, duration, end);
      && |r.args| == (if t.Some? then 11 else 9)
      && (t.Some? ==> r.args[6..8] == ["-t", t.value])
    ensures Invokes(r.args, r.output)
    ensures r.args[2..6] == ["-ss", start, "-i", video]
    ensures r.args[|r.args| - 3..|r.args| - 1] == ["-c", "copy"]
    ensures r.output == DerivedOutput(SplitExt(video).0, "_cut", "mp4", existing, clock)
    ensures r.output !in existing
  {
    var output := DerivedOutput(SplitExt(video).0, "_cut", "mp4", existing, clock);
    var command := ["ffmpeg", "-y", "-ss", start, "-i", video];
    var timed :=
      match TrimLength(start, duration, end)
      case Some(t) => command + ["-t", t]
      case None => command;
    BuiltCommand(timed + ["-c", "copy", output], output)
  }

  /** `limit_kps_command`. */
  function LimitKpsCommand(input: string, videoBitrate: string, maxrate: string, outputFormat: string,
                           existing: set<string>, clock: seq<nat>)
    : (r: BuiltCommand)
    requires Resolvable(SplitExt(input).0 + "_limited" + "." + outputFormat, existing, clock)
    ensures Invokes(r.args, r.output) && |r.args| == 11
    ensures r.args[2..4] == ["-i", input]
    ensures r.args[4..10] == ["-c:v", "libx264", "-b:v", videoBitrate, "-maxrate", maxrate]
    ensures r.output == DerivedOutput(SplitExt(input).0, "_limited", outputFormat, existing, clock)
    ensures r.output !in existing
  {
    var output := DerivedOutput(SplitExt(input).0, "_limited", outputFormat, existing, clock);
    BuiltCommand(
      ["ffmpeg", "-y", "-i", input, "-c:v", "libx264", "-b:v", videoBitrate, "-maxrate", maxrate, output],
      output)
  }

  /** `scale_video_command`: width and height are passed as typed. */
  function ScaleVideoCommand(input: string, width: string, height: string, preset: string, crf: string,
                             outputFormat: string, existing: set<string>, clock: seq<nat>)
    : (r: BuiltCommand)
    requires Resolvable(SplitExt(input).0 + "_scaled" + "." + outputFormat, existing, clock)
    ensures Invokes(r.args, r.output) && |r.args| == 11
    ensures r.args[2..4] == ["-i", input]
    ensures r.args[4..6] == ["-vf", "scale=" + width + ":" + height]
    ensures r.args[6..10] == ["-preset", preset, "-crf", crf]
    ensures r.output == DerivedOutput(SplitExt(input).0, "_scaled", outputFormat, existing, clock)
    ensures r.output !in existing
  {
    var output := DerivedOutput(SplitExt(input).0, "_scaled", outputFormat, existing, clock);
    BuiltCommand(
      ["ffmpeg", "-y", "-i", input, "-vf", "scale=" + width + ":" + height, "-preset", preset, "-crf", crf, output],
      output)
  }


  lemma JoinFour(a: string, b: string, c: string, d: string, sep: char)
    ensures JoinWith([a, b, c, d], sep) == a + [sep] + b + [sep] + c + [sep] + d
  {
    assert [a, b, c, d][1..] == [b, c, d];
    assert [b, c, d][1..] == [c, d];
    assert [c, d][1..] == [d];
    assert JoinWith([d], sep) == d;
    assert JoinWith([c, d], sep) == c + [sep] + d;
    assert JoinWith([b, c, d], sep) == b + [sep] + (c + [sep] + d);
    assert JoinWith([a, b, c, d], sep) == a + [sep] + (b + [sep] + (c + [sep] + d));
  }

  lemma SplitFourFields(a: string, b: string, c: string, d: string)
    requires ':' !in a && ':' !in b && ':' !in c && ':' !in d
    ensures Split(a + ":" + b + ":" + c + ":" + d, ':') == [a, b, c, d]
  {
    JoinFour(a, b, c, d, ':');
    SplitJoin([a, b, c, d], ':');
  }

  lemma NoColonConcat(a: string, b: string)
    requires ':' !in a && ':' !in b
    ensures ':' !in a + b
  {
  }

  /** Two tagged fields and two plain ones, joined by ':', split back apart. */
  lemma TaggedFields(t1: string, w: string, t2: string, h: string, x: string, y: string)
    requires ':' !in t1 && ':' !in t2
    requires ':' !in w && ':' !in h && ':' !in x && ':' !in y
    ensures Split(t1 + w + ":" + t2 + h + ":" + x + ":" + y, ':') == [t1 + w, t2 + h, x, y]
  {
    var a, b := t1 + w, t2 + h;
    NoColonConcat(t1, w);
    NoColonConcat(t2, h);
    assert t1 + w + ":" + t2 + h + ":" + x + ":" + y == a + ":" + b + ":" + x + ":" + y;
    SplitFourFields(a, b, x, y);
  }

  lemma IntTextHasNoColon(i: int)
    ensures ':' !in IntToString(i)
  {
    IntTextHasNo(i, ':');
  }

  /** `crop=iw-{l+r}:ih-{t+b}:{l}:{t}`, with no check against the frame
      size: split at ':' it reads back as the width and height reductions
      and the two offsets, whatever their signs. */
  function CropFilter(top: int, bottom: int, left: int, right: int): (f: string)
    ensures Split(f, ':')
         == ["crop=iw-" + IntToString(left + right), "ih-" + IntToString(top + bottom),
             IntToString(left), IntToString(top)]
  {
    var w, h, x, y := IntToString(left + right), IntToString(top + bottom), IntToString(left), IntToString(top);
    IntTextHasNoColon(left + right);
    IntTextHasNoColon(top + bottom);
    IntTextHasNoColon(left);
    IntTextHasNoColon(top);
    assert ':' !in "crop=iw-" && ':' !in "ih-";
    TaggedFields("crop=iw-", w, "ih-", h, x, y);
    "crop=iw-" + w + ":" + "ih-" + h + ":" + x + ":" + y
  }

  /** For margins that are not negative, the four fields are plain numerals
      whose values are the width and height reductions and the offsets. */
  lemma CropFilterReadsBack(top: nat, bottom: nat, left: nat, right: nat)
    ensures Split(CropFilter(top, bottom, left, right), ':')
         == ["crop=iw-" + NatToString(left + right), "ih-" + NatToString(top + bottom),
             NatToString(left), NatToString(top)]
  {
    assert IntToString(left + right) == NatToString(left + right);
    assert IntToString(top + bottom) == NatToString(top + bottom);
  }

  /** Cropping 20 from the top and 10 from the bottom. */
  lemma CropTwentyTopTenBottom()
    ensures CropFilter(20, 10, 0, 0) == "crop=iw-0:ih-30:0:20"
  {
    assert NatToString(0) == "0";
    assert NatToString(20) == "20";
    assert NatToString(30) == "30";
  }

  /** `ffmpeg -y -i <input> -vf <filter> <output>`. */
  function FilterCommand(input: string, filter: string, output: string): (r: BuiltCommand)
    ensures Invokes(r.args, r.output) && |r.args| == 7 && r.output == output
    ensures r.args[2..6] == ["-i", input, "-vf", filter]
  {
    BuiltCommand(["ffmpeg", "-y", "-i", input, "-vf", filter, output], output)
  }

  /** `crop_video_command`. */
  function CropVideoCommand(input: string, top: int, bottom: int, left: int, right: int,
                            outputFormat: string, existing: set<string>, clock: seq<nat>)
    : (r: BuiltCommand)
    requires Resolvable(SplitExt(input).0 + "_cropped" + "." + outputFormat, existing, clock)
    ensures Invokes(r.args, r.output) && |r.args| == 7
    ensures r.args[2..6] == ["-i", input, "-vf", CropFilter(top, bottom, left, right)]
    ensures r.output == DerivedOutput(SplitExt(input).0, "_cropped", outputFormat, existing, clock)
    ensures r.output !in existing
  {
    var output := DerivedOutput(SplitExt(input).0, "_cropped", outputFormat, existing, clock);
    FilterCommand(input, CropFilter(top, bottom, left, right), output)
  }

  /** `remove_audio_command`. */
  function RemoveAudioCommand(video: string, outputFormat: string, existing: set<string>, clock: seq<nat>)
    : (r: BuiltCommand)
    requires Resolvable(SplitExt(video).0 + "_SIN_AUDIO" + "." + outputFormat, existing, clock)
    ensures Invokes(r.args, r.output) && |r.args| == 8
    ensures r.args[2..7] == ["-i", video, "-c:v", "copy", "-an"]
    ensures r.output == DerivedOutput(SplitExt(video).0, "_SIN_AUDIO", outputFormat, existing, clock)
    ensures r.output !in existing
  {
    var output := DerivedOutput(SplitExt(video).0, "_SIN_AUDIO", outputFormat, existing, clock);
    BuiltCommand(["ffmpeg", "-y", "-i", video, "-c:v", "copy", "-an", output], output)
  }

  /** `replace_audio_command`: video of the first input, audio of the second. */
  function ReplaceAudioCommand(video: string, newAudio: string, outputFormat: string,
                               existing: set<string>, clock: seq<nat>)
    : (r: BuiltCommand)
    requires Resolvable(SplitExt(video).0 + "_REPLACE_AUDIO" + "." + outputFormat, existing, clock)
    ensures Invokes(r.args, r.output) && |r.args| == 18
    ensures r.args[2..6] == ["-i", video, "-i", newAudio]
    ensures r.args[6..12] == ["-c:v", "copy", "-c:a", "aac", "-b:a", "192k"]
    ensures r.args[12..16] == ["-map", "0:v:0", "-map", "1:a:0"]
    ensures r.args[16] == "-shortest"
    ensures r.output == DerivedOutput(SplitExt(video).0, "_REPLACE_AUDIO", outputFormat, existing, clock)
    ensures r.output !in existing
  {
    var output := DerivedOutput(SplitExt(video).0, "_REPLACE_AUDIO", outputFormat, existing, clock);
    BuiltCommand(
      ["ffmpeg", "-y", "-i", video, "-i", newAudio, "-c:v", "copy", "-c:a", "aac", "-b:a", "192k",
       "-map", "0:v:0", "-map", "1:a:0", "-shortest", output],
      output)
  }
}

=== FILE: common.dfy ===
/** Shared vocabulary of the command builders and the worker: optional values,
    Python truthiness of optional text arguments, and the (command, output)
    pair every builder returns. */
module Common {

  /** Python's `None` or a value. */
  datatype Option<+T> = None | Some(value: T) {
    function GetOr(default: T): T {
      match this
      case Some(v) => v
      case None => default
    }
  }

  /** `if x:` on an optional string argument: `None` and `""` are both false. */
  predicate Truthy(o: Option<string>) {
    o.Some? && o.value != ""
  }

  /** What a builder returns: the argument vector for the external tool and
      the output path it writes. `([], "")` signals a failed build. */
  datatype BuiltCommand = BuiltCommand(args: seq<string>, output: string)

  const Failed: BuiltCommand := BuiltCommand([], "")

  /** A vector that runs the tool with unconditional overwrite and names
      `output` as its final argument. */
  predicate Invokes(args: seq<string>, output: string) {
    && |args| >= 3
    && args[0] == "ffmpeg"
    && args[1] == "-y"
    && args[|args| - 1] == output
  }

  /** The audio encoding options shared by every builder that adds a track. */
  const AacOptions: seq<string> := ["-c:a", "aac", "-b:a", "192k", "-shortest"]
}

=== FILE: image_pattern.dfy ===
/** Numbering-pattern detection on a directory listing: Python's
    `sorted(...)[0]` and the anchored, greedy matches of `(.+_)(\d+)` and
    `(.+_)(\d{4})` that logic/ffmpeg_logic.py and ffmpeg_logic.py run on the
    first sorted file name. */
module ImagePattern {
  import opened Common
  import opened Text

  /** `sorted(listing)[0]`. */
  function FirstName(listing: seq<string>): (m: string)
    requires |listing| > 0
    ensures m in listing
  {
    if |listing| == 1 then listing[0]
    else
      var rest := FirstName(listing[1..]);
      if LexLe(listing[0], rest) then listing[0] else rest
  }

  /** The first sorted name is no greater than any name of the listing. */
  lemma {:induction false} FirstNameIsLeast(listing: seq<string>)
    requires |listing| > 0
    ensures forall x :: x in listing ==> LexLe(FirstName(listing), x)
  {
    if |listing| > 1 {
      var rest := FirstName(listing[1..]);
      FirstNameIsLeast(listing[1..]);
      LexLeTotal(listing[0], rest);
      forall x | x in listing
        ensures LexLe(FirstName(listing), x)
      {
        if x == listing[0] {
          LexLeTotal(x, x);
        } else {
          assert x in listing[1..];
          if LexLe(listing[0], rest) {
            LexLeTransitive(listing[0], rest, x);
          }
        }
      }
    } else {
      LexLeTotal(listing[0], listing[0]);
    }
  }

  /** Any name that is least in the listing is the first sorted name, so the
      choice does not depend on the listing's order. */
  lemma FirstNameIsUnique(listing: seq<string>, m: string)
    requires m in listing
    requires forall x :: x in listing ==> LexLe(m, x)
    ensures m == FirstName(listing)
  {
    FirstNameIsLeast(listing);
    LexLeAntisymmetric(m, FirstName(listing));
  }

  /** `(.+_)` can end at index `i` with `n` digits after it: at least one
      character before the '_', none of them a newline (`.` does not match
      one), then the digits. */
  predicate SplitsAt(name: string, i: int, n: nat) {
    && 1 <= i && i + n < |name|
    && name[i] == '_'
    && (forall j :: 0 <= j < i ==> name[j] != '\n')
    && (forall j :: i < j <= i + n ==> IsDigit(name[j]))
  }

  /** Backtracking of the greedy `.+` from index `i` down. */
  function GreedySplitFrom(name: string, n: nat, i: int): (r: Option<nat>)
    requires i < |name|
    ensures r.Some? ==> r.value <= i && SplitsAt(name, r.value, n)
    ensures r.Some? ==> forall j :: r.value < j <= i ==> !SplitsAt(name, j, n)
    ensures r.None? ==> forall j :: j <= i ==> !SplitsAt(name, j, n)
    decreases i
  {
    if i < 1 then None
    else if SplitsAt(name, i, n) then Some(i)
    else GreedySplitFrom(name, n, i - 1)
  }

  /** Where the greedy `(.+_)` ends: the last admissible '_'. */
  function GreedySplit(name: string, n: nat): (r: Option<nat>)
    ensures r.Some? ==> SplitsAt(name, r.value, n)
    ensures r.Some? ==> forall j :: r.value < j ==> !SplitsAt(name, j, n)
    ensures r.None? <==> forall j :: !SplitsAt(name, j, n)
  {
    GreedySplitFrom(name, n, |name| - 1)
  }

  /** The two groups of a successful `re.match`. */
  datatype NumberedName = NumberedName(prefix: string, digits: string)

  /** `re.match(r"(.+_)(\d+)", name)`: the prefix up to the last admissible
      '_', then the whole digit run after it. */
  function MatchNumbered(name: string): (r: Option<NumberedName>)
    ensures r.None? <==> forall j :: !SplitsAt(name, j, 1)
    ensures r.Some? ==>
      && SplitsAt(name, |r.value.prefix| - 1, 1)
      && (forall j :: |r.value.prefix| <= j ==> !SplitsAt(name, j, 1))
      && IsNumeral(r.value.digits)
      && StartsWith(name, r.value.prefix + r.value.digits)
      && var e := |r.value.prefix| + |r.value.digits|; e == |name| || !IsDigit(name[e])
  {
    match GreedySplit(name, 1)
    case None => None
    case Some(i) =>
      var w := DigitRunLength(name, i + 1);
      assert name[..i + 1 + w] == name[..i + 1] + name[i + 1..i + 1 + w];
      Some(NumberedName(name[..i + 1], name[i + 1..i + 1 + w]))
  }

  /** Group 1 of `re.match(r"(.+_)(\d{4})", name)`. */
  function MatchFourDigitPrefix(name: string): (r: Option<string>)
    ensures r.None? <==> forall j :: !SplitsAt(name, j, 4)
    ensures r.Some? ==>
      && SplitsAt(name, |r.value| - 1, 4)
      && (forall j :: |r.value| <= j ==> !SplitsAt(name, j, 4))
      && StartsWith(name, r.value)
  {
    match GreedySplit(name, 4)
    case None => None
    case Some(i) => Some(name[..i + 1])
  }

  /** `detect_image_prefix`: the `(.+_)` group of `(.+_)(\d{4})` on the
      first sorted name, or nothing for an empty listing or no match.
      Python returns `(prefix, True)` or `(None, False)`. */
  function DetectImagePrefix(listing: seq<string>): (r: Option<string>)
    ensures r.None? <==> |listing| == 0 || forall j :: !SplitsAt(FirstName(listing), j, 4)
    ensures r.Some? ==> SplitsAt(FirstName(listing), |r.value| - 1, 4)
    ensures r.Some? ==> |r.value| >= 2 && r.value[|r.value| - 1] == '_'
    ensures r.Some? ==> StartsWith(FirstName(listing), r.value)
    ensures r.Some? ==> |r.value| + 4 <= |FirstName(listing)|
    ensures r.Some? ==> IsNumeral(FirstName(listing)[|r.value|..|r.value| + 4])
    ensures r.Some? ==> forall j :: |r.value| <= j ==> !SplitsAt(FirstName(listing), j, 4)
  {
    if |listing| == 0 then None
    else
      var name := FirstName(listing);
      var m := MatchFourDigitPrefix(name);
      assert name == FirstName(listing);
      assert (forall j :: !SplitsAt(name, j, 4)) <==> (forall j :: !SplitsAt(FirstName(listing), j, 4));
      if m.Some? then
        FourDigitPrefixFacts(name, m.value);
        m
      else m
  }

  /** A prefix that ends at a four-digit split ends in '_' after at least
      one character, and four digits follow it. */
  lemma FourDigitPrefixFacts(name: string, p: string)
    requires SplitsAt(name, |p| - 1, 4) && StartsWith(name, p)
    ensures |p| >= 2 && p[|p| - 1] == '_'
    ensures |p| + 4 <= |name| && IsNumeral(name[|p|..|p| + 4])
  {
    var i := |p| - 1;
    assert p[i] == name[..|p|][i] == name[i];
    assert forall j :: |p| <= j < |p| + 4 ==> IsDigit(name[j]);
  }

  /** `.+` cannot cross a newline: in "x_1234\ny_5678" the '_' of "y_" is
      not admissible, so the prefix is "x_". */
  lemma NewlineStopsPrefix()
    ensures DetectImagePrefix(["x_1234\ny_5678"]) == Some("x_")
  {
    var name := "x_1234\ny_5678";
    assert FirstName([name]) == name;
    assert SplitsAt(name, 1, 4);
    forall j | 1 < j
      ensures !SplitsAt(name, j, 4)
    {
      if j < |name| && name[j] == '_' {
        assert j == 8 && name[6] == '\n';
      }
    }
    GreedySplitIsLast(name, 4, 1);
    assert name[..2] == "x_";
  }

  /** The greedy split is the last admissible '_'. */
  lemma GreedySplitIsLast(name: string, n: nat, i: int)
    requires SplitsAt(name, i, n)
    requires forall j :: i < j ==> !SplitsAt(name, j, n)
    ensures GreedySplit(name, n) == Some(i)
  {
  }

  /** A name built as prefix, digits and an extension is matched as exactly
      that prefix and that digit run, whatever the digit count. */
  lemma NumberedNameIsMatched(prefix: string, digits: string, ext: string)
    requires |prefix| >= 2 && prefix[|prefix| - 1] == '_' && '\n' !in prefix
    requires IsNumeral(digits)
    requires '_' !in ext && (ext == "" || !IsDigit(ext[0]))
    ensures MatchNumbered(prefix + digits + ext) == Some(NumberedName(prefix, digits))
  {
    var name := prefix + digits + ext;
    var i := |prefix| - 1;
    var e := |prefix| + |digits|;
    assert name[..|prefix|] == prefix;
    assert name[|prefix|..e] == digits;
    assert name[e..] == ext;
    assert forall j :: 0 <= j < i ==> name[j] == prefix[j];
    assert forall j :: |prefix| <= j < e ==> name[j] == digits[j - |prefix|];
    assert forall j :: e <= j < |name| ==> name[j] == ext[j - e];
    assert SplitsAt(name, i, 1);
    assert forall j :: i < j < |name| ==> name[j] != '_';
    GreedySplitIsLast(name, 1, i);
    DigitRunIs(name, i + 1, |digits|);
  }

  /** The four-digit pattern never yields a longer prefix than `\d+` does
      on the same name; on "a_0001_5" they differ ("a_" against "a_0001_"). */
  lemma FourDigitPrefixNoLonger(name: string)
    requires MatchFourDigitPrefix(name).Some?
    ensures MatchNumbered(name).Some?
    ensures |MatchFourDigitPrefix(name).value| <= |MatchNumbered(name).value.prefix|
  {
    var i := |MatchFourDigitPrefix(name).value| - 1;
    assert SplitsAt(name, i, 1);
  }
}

=== FILE: legacy_builder.dfy ===
/** The older sequence-to-video builder of ffmpeg_logic.py, the one the
    root GUI calls: the prefix comes from `(.+_)(\d{4})`, the input pattern
    is always four digits wide, the output is always `video_output.<fmt>`
    in the folder, with no check for an existing file, and the video
    options are fixed. */
module LegacyBuilder {
  import opened Common
  import opened Text
  import opened Paths
  import opened ImagePattern
  import Builders

  const LegacyVideoOptions: seq<string> := ["-c:v", "libx264", "-pix_fmt", "yuv420p"]

  /** `os.path.join(folder, f"{prefix}%04d.png")`. */
  function LegacyPattern(folder: string, prefix: string): (p: string)
    ensures EndsWith(p, prefix + "%04d.png")
    ensures !StartsWith(prefix, "/") ==> StartsWith(p, folder)
  {
    RelativeAppend(prefix, "%04d.png");
    Join(folder, prefix + "%04d.png")
  }

  /** `os.path.join(folder, f"video_output.{output_format}")`. */
  function LegacyOutput(folder: string, outputFormat: string): (out: string)
    ensures EndsWith(out, "video_output." + outputFormat)
    ensures folder != "" && !EndsWith(folder, "/") ==> out == folder + "/video_output." + outputFormat
    ensures folder == "" || EndsWith(folder, "/") ==> out == folder + "video_output." + outputFormat
  {
    var name := "video_output." + outputFormat;
    assert name[..1] == "v";
    var out := Join(folder, name);
    if folder != "" && !EndsWith(folder, "/") then
      assert out == folder + "/" + name;
      out
    else
      assert out == folder + name;
      out
  }

  /** The command in the builder's order: image input, optional audio
      input, the fixed video options, optional audio options, output. */
  function LegacyAssemble(head: seq<string>, audio: Option<string>, output: string): (r: BuiltCommand)
    requires |head| == 6 && head[0] == "ffmpeg" && head[1] == "-y"
    ensures
      var a := Truthy(audio);
      var v := if a then 8 else 6;
      var n := |r.args|;
      && Invokes(r.args, r.output) && r.output == output
      && n == (if a then 18 else 11)
      && r.args[..6] == head
      && (a ==> r.args[6..8] == ["-i", audio.value] && r.args[n - 6..n - 1] == AacOptions)
      && r.args[v..v + 4] == LegacyVideoOptions
  {
    var withAudio := if Truthy(audio) then head + ["-i", audio.value] else head;
    var encoded := withAudio + LegacyVideoOptions;
    var mixed := if Truthy(audio) then encoded + AacOptions else encoded;
    BuiltCommand(mixed + [output], output)
  }

  /** `convert_images_to_video_command` of ffmpeg_logic.py; `fps` is the
      text the caller typed, passed through `str()` unchanged. */
  function LegacyConvertCommand(folder: string, listing: seq<string>, fps: string, audio: Option<string>,
                                outputFormat: string)
    : (r: BuiltCommand)
    ensures r == Failed <==> DetectImagePrefix(listing).None?
    ensures r != Failed ==>
      var prefix := DetectImagePrefix(listing).value;
      var a := Truthy(audio);
      var v := if a then 8 else 6;
      var n := |r.args|;
      && Invokes(r.args, r.output)
      && n == (if a then 18 else 11)
      && r.args[..6] == ["ffmpeg", "-y", "-framerate", fps, "-i", LegacyPattern(folder, prefix)]
      && (a ==> r.args[6..8] == ["-i", audio.value] && r.args[n - 6..n - 1] == AacOptions)
      && r.args[v..v + 4] == LegacyVideoOptions
      && r.output == LegacyOutput(folder, outputFormat)
  {
    match DetectImagePrefix(listing)
    case None => Failed
    case Some(prefix) =>
      var head := ["ffmpeg", "-y", "-framerate", fps, "-i", LegacyPattern(folder, prefix)];
      LegacyAssemble(head, audio, LegacyOutput(folder, outputFormat))
  }

  /** The output path does not depend on the folder's contents: any two
      listings that build a command write the same file, existing or not. */
  lemma LegacyOutputIsFixed(folder: string, l1: seq<string>, l2: seq<string>, fps: string,
                            audio: Option<string>, outputFormat: string)
    requires LegacyConvertCommand(folder, l1, fps, audio, outputFormat) != Failed
    requires LegacyConvertCommand(folder, l2, fps, audio, outputFormat) != Failed
    ensures LegacyConvertCommand(folder, l1, fps, audio, outputFormat).output
         == LegacyConvertCommand(folder, l2, fps, audio, outputFormat).output
  {
  }

  /** A first name `{prefix}{digits}{ext}` with at least four digits gives
      `prefix` to the four-digit detection. */
  lemma FourDigitPrefixOfNumberedName(prefix: string, digits: string, ext: string)
    requires |prefix| >= 2 && prefix[|prefix| - 1] == '_' && '\n' !in prefix
    requires IsNumeral(digits) && |digits| >= 4
    requires '_' !in ext
    ensures MatchFourDigitPrefix(prefix + digits + ext) == Some(prefix)
  {
    var name := prefix + digits + ext;
    var i := |prefix| - 1;
    var e := |prefix| + |digits|;
    assert forall j :: 0 <= j < i ==> name[j] == prefix[j];
    assert forall j :: |prefix| <= j < e ==> name[j] == digits[j - |prefix|];
    assert forall j :: e <= j < |name| ==> name[j] == ext[j - e];
    assert SplitsAt(name, i, 4);
    assert forall j :: i < j < |name| ==> name[j] != '_';
    GreedySplitIsLast(name, 4, i);
    assert name[..i + 1] == prefix;
  }

  /** The image input is the four-digit pattern on the detected prefix. */
  lemma LegacyInput(folder: string, listing: seq<string>, fps: string, audio: Option<string>, outputFormat: string)
    requires DetectImagePrefix(listing).Some?
    ensures |LegacyConvertCommand(folder, listing, fps, audio, outputFormat).args| > 5
    ensures LegacyConvertCommand(folder, listing, fps, audio, outputFormat).args[5]
         == LegacyPattern(folder, DetectImagePrefix(listing).value)
  {
    var r := LegacyConvertCommand(folder, listing, fps, audio, outputFormat);
    assert r.args[..6][5] == r.args[5];
  }

  /** On the same folder the two builders pick the same prefix but only the
      newer one follows the digit count: with five-digit names the legacy
      pattern still asks for four. */
  lemma LegacyPatternIgnoresWidth(folder: string, listing: seq<string>, prefix: string, digits: string,
                                  fps: string, audio: Option<string>, outputFormat: string)
    requires |listing| > 0 && FirstName(listing) == prefix + digits + ".png"
    requires |prefix| >= 2 && prefix[|prefix| - 1] == '_' && '\n' !in prefix
    requires IsNumeral(digits) && |digits| >= 4
    ensures DetectImagePrefix(listing) == Some(prefix)
    ensures Builders.SequenceMatch(listing) == Some(NumberedName(prefix, digits))
    ensures var cmd := LegacyConvertCommand(folder, listing, fps, audio, outputFormat);
      |cmd.args| > 5 && cmd.args[5] == Join(folder, prefix + "%04d.png")
  {
    FourDigitPrefixOfNumberedName(prefix, digits, ".png");
    NumberedNameIsMatched(prefix, digits, ".png");
    assert DetectImagePrefix(listing) == Some(prefix);
    LegacyInput(folder, listing, fps, audio, outputFormat);
  }

  /** No '_' before the last one of the prefix and three digits after it:
      nowhere to split off four digits. */
  lemma NoFourDigitSplit(prefix: string, digits: string)
    requires |prefix| >= 2 && prefix[|prefix| - 1] == '_' && '_' !in prefix[..|prefix| - 1]
    requires IsNumeral(digits) && |digits| == 3
    ensures forall j :: !SplitsAt(prefix + digits + ".png", j, 4)
  {
    var name := prefix + digits + ".png";
    var i := |prefix| - 1;
    forall j
      ensures !SplitsAt(name, j, 4)
    {
      if 0 <= j < i {
        assert name[j] == prefix[..i][j];
      } else if j == i {
        assert name[i + 4] == '.';
      } else if i < j < |name| {
        assert name[j] != '_' by {
          if j < |prefix| + 3 {
            assert name[j] == digits[j - |prefix|];
          } else {
            assert name[j] == ".png"[j - |prefix| - 3];
          }
        }
      }
    }
  }

  /** Three-digit names defeat the legacy detection, though the newer
      builder accepts them. */
  lemma ThreeDigitNamesRejected(listing: seq<string>, prefix: string, digits: string)
    requires |listing| > 0 && FirstName(listing) == prefix + digits + ".png"
    requires |prefix| >= 2 && prefix[|prefix| - 1] == '_' && '_' !in prefix[..|prefix| - 1]
    requires '\n' !in prefix
    requires IsNumeral(digits) && |digits| == 3
    ensures DetectImagePrefix(listing).None?
    ensures Builders.SequenceMatch(listing) == Some(NumberedName(prefix, digits))
  {
    NoFourDigitSplit(prefix, digits);
    NumberedNameIsMatched(prefix, digits, ".png");
  }
}

=== FILE: paths.dfy ===
/** Path helpers of logic/ffmpeg_logic.py: POSIX `os.path.join`,
    `os.path.splitext`, the `rsplit('.', 1)[0]` used by the add-audio
    builder, and `get_unique_filename`, with the filesystem given as the set
    of existing paths and `int(time.time())` as a supply of clock readings. */
module Paths {
  import opened Common
  import opened Text

  /** `os.path.join(dir, name)` for two components (posixpath). */
  function Join(dir: string, name: string): (p: string)
    ensures EndsWith(p, name)
    ensures StartsWith(name, "/") ==> p == name
    ensures !StartsWith(name, "/") ==> StartsWith(p, dir)
    ensures !StartsWith(name, "/") && dir != "" && !EndsWith(dir, "/") ==>
      |p| == |dir| + 1 + |name| && p[..|dir|] == dir && p[|dir|] == '/' && p[|dir| + 1..] == name
    ensures !StartsWith(name, "/") && (dir == "" || EndsWith(dir, "/")) ==>
      |p| == |dir| + |name| && p[..|dir|] == dir && p[|dir|..] == name
  {
    if StartsWith(name, "/") then name
    else if dir == "" || EndsWith(dir, "/") then dir + name
    else dir + "/" + name
  }

  /** A relative name stays relative when text that does not start with
      '/' is appended. */
  lemma RelativeAppend(a: string, b: string)
    ensures !StartsWith(a, "/") && (b == "" || b[0] != '/') ==> !StartsWith(a + b, "/")
  {
    if |a| > 0 {
      assert (a + b)[..1] == a[..1];
    } else {
      assert a + b == b;
    }
  }

  /** The position of the last `c` in `s`, or -1. */
  function LastIndex(s: string, c: char): (i: int)
    ensures -1 <= i < |s|
    ensures i >= 0 ==> s[i] == c
    ensures forall k :: i < k < |s| ==> s[k] != c
  {
    if |s| == 0 then -1
    else if s[|s| - 1] == c then |s| - 1
    else LastIndex(s[..|s| - 1], c)
  }

  /** `d` is where `os.path.splitext` cuts `p`: the last '.', with no '/'
      after it, and some character other than '.' between the last '/' and
      it (so ".bashrc" and "dir/..." have no extension). */
  ghost predicate ExtensionAt(p: string, d: int) {
    && 0 <= d < |p|
    && p[d] == '.'
    && (forall k :: d < k < |p| ==> p[k] != '.' && p[k] != '/')
    && exists j :: 0 <= j < d && p[j] != '.' && p[j] != '/' && (forall k :: j < k < d ==> p[k] != '/')
  }

  /** `os.path.splitext(p)`: root and extension, the extension empty or
      starting at the only admissible cut. */
  function SplitExt(p: string): (r: (string, string))
    ensures r.0 + r.1 == p
    ensures r.1 != "" <==> exists d :: ExtensionAt(p, d)
    ensures r.1 != "" ==> ExtensionAt(p, |r.0|)
  {
    var s := LastIndex(p, '/');
    var d := LastIndex(p, '.');
    if d > s && exists k :: s < k < d && p[k] != '.' then
      assert p[..d] + p[d..] == p;
      assert ExtensionAt(p, d) by {
        var k :| s < k < d && p[k] != '.';
        assert p[k] != '/';
      }
      (p[..d], p[d..])
    else
      assert forall e :: !ExtensionAt(p, e);
      (p, "")
  }

  /** `p.rsplit('.', 1)[0]`: everything before the last '.' anywhere in the
      path, directory part included, or the whole path. */
  function RSplitRoot(p: string): (r: string)
    ensures StartsWith(p, r)
    ensures '.' !in p ==> r == p
    ensures '.' in p ==> |r| < |p| && p[|r|] == '.' && '.' !in p[|r| + 1..]
  {
    var d := LastIndex(p, '.');
    if d < 0 then p else p[..d]
  }

  /** The two root functions disagree when the directory has a dot and the
      file name none: the add-audio output would land beside the directory. */
  lemma RootsDifferOnDottedDirectory()
    ensures RSplitRoot("clips.v2/take") == "clips"
    ensures SplitExt("clips.v2/take").0 == "clips.v2/take"
  {
    var p := "clips.v2/take";
    assert p[5] == '.' && p[8] == '/';
    assert LastIndex(p, '.') == 5;
    assert LastIndex(p, '/') == 8;
    assert !ExtensionAt(p, 5);
  }

  /** `f"{base}_{timestamp}{ext}"` for the root and extension of `path`. */
  function Stamped(path: string, t: nat): (r: string)
    ensures |r| > |path|
  {
    var (root, ext) := SplitExt(path);
    root + "_" + NatToString(t) + ext
  }

  /** `get_unique_filename` can return: `path` is free, or some clock
      reading yields a free stamped name. */
  predicate Resolvable(path: string, existing: set<string>, clock: seq<nat>) {
    path !in existing || exists k :: 0 <= k < |clock| && Stamped(path, clock[k]) !in existing
  }

  /** The first reading at or after `i` whose stamped name is free. */
  function FirstFreeReading(path: string, existing: set<string>, clock: seq<nat>, i: nat): (k: nat)
    requires exists k :: i <= k < |clock| && Stamped(path, clock[k]) !in existing
    ensures i <= k < |clock| && Stamped(path, clock[k]) !in existing
    ensures forall j :: i <= j < k ==> Stamped(path, clock[j]) in existing
    decreases |clock| - i
  {
    if Stamped(path, clock[i]) !in existing then i
    else FirstFreeReading(path, existing, clock, i + 1)
  }

  /** What `get_unique_filename(path)` returns, as a definition by cases. */
  function UniquePath(path: string, existing: set<string>, clock: seq<nat>): (r: string)
    requires Resolvable(path, existing, clock)
    ensures r !in existing
    ensures path !in existing ==> r == path
    ensures path in existing ==>
      exists k :: 0 <= k < |clock| && r == Stamped(path, clock[k])
               && forall j :: 0 <= j < k ==> Stamped(path, clock[j]) in existing
  {
    if path !in existing then path
    else
      var k := FirstFreeReading(path, existing, clock, 0);
      Stamped(path, clock[k])
  }

  /** `get_unique_filename`: keep the path if it is free, otherwise stamp it
      with successive clock readings until a stamped name is free. */
  method GetUniqueFilename(path: string, existing: set<string>, clock: seq<nat>) returns (r: string)
    requires Resolvable(path, existing, clock)
    ensures r !in existing
    ensures r == UniquePath(path, existing, clock)
  {
    if path !in existing {
      return path;
    }
    var i := 0;
    r := Stamped(path, clock[0]);
    while r in existing
      invariant 0 <= i < |clock|
      invariant r == Stamped(path, clock[i])
      invariant forall j :: 0 <= j < i ==> Stamped(path, clock[j]) in existing
      decreases |clock| - i
    {
      i := i + 1;
      r := Stamped(path, clock[i]);
    }
    assert i == FirstFreeReading(path, existing, clock, 0);
  }

  /** `splitext` cuts `stem.ext` at the added dot when the extension is a
      plain word and the stem ends in a name character. */
  lemma SplitExtOfStem(stem: string, ext: string)
    requires |stem| > 0 && stem[|stem| - 1] != '.' && stem[|stem| - 1] != '/'
    requires '.' !in ext && '/' !in ext
    ensures SplitExt(stem + "." + ext) == (stem, "." + ext)
  {
    var p := stem + "." + ext;
    var d := |stem|;
    assert p[d + 1..] == ext;
    assert forall k :: d < k < |p| ==> p[k] == ext[k - d - 1];
    assert p[d - 1] == stem[d - 1];
    assert ExtensionAt(p, d);
    var r := SplitExt(p);
    assert r.1 != "";
    assert ExtensionAt(p, |r.0|);
    assert |r.0| == d;
    assert r.0 == p[..d] && r.1 == p[d..];
    assert p[..d] == stem;
    assert p[d..] == "." + ext;
  }

  /** The stamped name of `stem.ext` puts `_<timestamp>` before the dot. */
  lemma StampedOfStem(stem: string, ext: string, t: nat)
    requires |stem| > 0 && stem[|stem| - 1] != '.' && stem[|stem| - 1] != '/'
    requires '.' !in ext && '/' !in ext
    ensures Stamped(stem + "." + ext, t) == stem + "_" + NatToString(t) + "." + ext
  {
    SplitExtOfStem(stem, ext);
  }
}

=== FILE: text.dfy ===
/** String helpers the builders rely on: decimal numerals and their values,
    Python's `str(int)`, ASCII lower-casing, prefix/suffix tests,
    `str.split` on one character, and Python's ordering of strings. */
module Text {

  predicate IsDigit(c: char) {
    '0' <= c <= '9'
  }

  predicate AllDigits(s: string) {
    forall i :: 0 <= i < |s| ==> IsDigit(s[i])
  }

  /** One or more decimal digits: what `\d+` matches and `int()` accepts here. */
  predicate IsNumeral(s: string) {
    |s| > 0 && AllDigits(s)
  }

  /** A numeral as `str()` prints a non-negative int: no leading zero. */
  predicate IsCanonicalNumeral(s: string) {
    IsNumeral(s) && (s[0] == '0' ==> |s| == 1)
  }

  function DigitValue(c: char): nat
    requires IsDigit(c)
  {
    c as int - '0' as int
  }

  function DigitChar(d: nat): (c: char)
    requires d < 10
    ensures IsDigit(c) && DigitValue(c) == d
  {
    ('0' as int + d) as char
  }

  /** The value of a decimal numeral, most significant digit first. */
  function NumeralValue(s: string): nat
    requires AllDigits(s)
  {
    if |s| == 0 then 0 else NumeralValue(s[..|s| - 1]) * 10 + DigitValue(s[|s| - 1])
  }

  /** Length of the digit run of `s` that starts at `k` (greedy `\d+`). */
  function DigitRunLength(s: string, k: nat): (w: nat)
    requires k <= |s|
    ensures k + w <= |s|
    ensures forall j :: k <= j < k + w ==> IsDigit(s[j])
    ensures k + w == |s| || !IsDigit(s[k + w])
    decreases |s| - k
  {
    if k == |s| || !IsDigit(s[k]) then 0 else 1 + DigitRunLength(s, k + 1)
  }

  /** The digit run at `k` is exactly `w` long when `w` digits are followed
      by the end or a non-digit. */
  lemma {:induction false} DigitRunIs(s: string, k: nat, w: nat)
    requires k + w <= |s|
    requires forall j :: k <= j < k + w ==> IsDigit(s[j])
    requires k + w == |s| || !IsDigit(s[k + w])
    ensures DigitRunLength(s, k) == w
    decreases w
  {
    if w > 0 {
      DigitRunIs(s, k + 1, w - 1);
    }
  }

  lemma NumeralValueSnoc(s: string, c: char)
    requires AllDigits(s) && IsDigit(c)
    ensures AllDigits(s + [c])
    ensures NumeralValue(s + [c]) == NumeralValue(s) * 10 + DigitValue(c)
  {
    assert (s + [c])[..|s|] == s;
  }

  /** Python's `str(n)` for a non-negative int; reads back as `n`. */
  function NatToString(n: nat): (s: string)
    ensures IsCanonicalNumeral(s)
    ensures NumeralValue(s) == n
  {
    if n < 10 then [DigitChar(n)]
    else
      var p := NatToString(n / 10);
      NumeralValueSnoc(p, DigitChar(n % 10));
      p + [DigitChar(n % 10)]
  }

  lemma {:induction false} LeadingDigitBound(s: string)
    requires IsNumeral(s) && s[0] != '0'
    ensures NumeralValue(s) >= 1
  {
    if |s| > 1 {
      LeadingDigitBound(s[..|s| - 1]);
    }
  }

  /** `str(int(s))` gives `s` back for every numeral without a leading zero. */
  lemma {:induction false} NumeralRoundTrip(s: string)
    requires IsCanonicalNumeral(s)
    ensures NatToString(NumeralValue(s)) == s
  {
    if |s| > 1 {
      var p := s[..|s| - 1];
      LeadingDigitBound(p);
      NumeralRoundTrip(p);
      var n := NumeralValue(s);
      assert n / 10 == NumeralValue(p);
      assert n % 10 == DigitValue(s[|s| - 1]);
      assert s == p + [s[|s| - 1]];
    }
  }

  /** Python's `str(i)` for any int: the canonical numeral of `|i|`, after
      a '-' when `i` is negative. */
  function IntToString(i: int): (s: string)
    ensures |s| > 0
    ensures i >= 0 ==> IsCanonicalNumeral(s) && NumeralValue(s) == i
    ensures i < 0 ==> |s| > 1 && s[0] == '-' && IsCanonicalNumeral(s[1..]) && NumeralValue(s[1..]) == -i
  {
    if i < 0 then
      var s := "-" + NatToString(-i);
      assert s[1..] == NatToString(-i);
      s
    else NatToString(i)
  }

  /** `str(i)` holds only digits and '-'. */
  lemma IntTextHasNo(i: int, c: char)
    requires !IsDigit(c) && c != '-'
    ensures c !in IntToString(i)
  {
    var s := IntToString(i);
    if i < 0 {
      assert forall k :: 1 <= k < |s| ==> s[k] == s[1..][k - 1];
    }
    assert forall k :: 0 <= k < |s| ==> s[k] != c;
  }

  function LowerChar(c: char): char {
    if 'A' <= c <= 'Z' then (c as int + 32) as char else c
  }

  /** `str.lower()` restricted to the ASCII letters. */
  function Lower(s: string): (r: string)
    ensures |r| == |s|
    ensures forall i :: 0 <= i < |s| ==> r[i] == LowerChar(s[i])
    ensures forall i :: 0 <= i < |r| ==> !('A' <= r[i] <= 'Z')
    ensures forall i :: 0 <= i < |s| && !('A' <= s[i] <= 'Z') ==> r[i] == s[i]
  {
    seq(|s|, i requires 0 <= i < |s| => LowerChar(s[i]))
  }

  predicate StartsWith(s: string, p: string) {
    |p| <= |s| && s[..|p|] == p
  }

  predicate EndsWith(s: string, p: string) {
    |p| <= |s| && s[|s| - |p|..] == p
  }

  /** The position of the first `c` in `s`. */
  function FirstIndex(s: string, c: char): (i: nat)
    requires c in s
    ensures i < |s| && s[i] == c && c !in s[..i]
  {
    if s[0] == c then 0
    else
      assert c in s[1..];
      var j := FirstIndex(s[1..], c);
      assert s[..j + 1] == [s[0]] + s[1..][..j];
      j + 1
  }

  /** Pieces glued back together with the separator between them. */
  function JoinWith(parts: seq<string>, sep: char): string
    requires |parts| >= 1
  {
    if |parts| == 1 then parts[0] else parts[0] + [sep] + JoinWith(parts[1..], sep)
  }

  /** Python's `s.split(sep)` for a one-character separator. */
  function Split(s: string, sep: char): (parts: seq<string>)
    ensures |parts| >= 1
    ensures forall k :: 0 <= k < |parts| ==> sep !in parts[k]
    ensures JoinWith(parts, sep) == s
    decreases |s|
  {
    if sep !in s then [s]
    else
      var i := FirstIndex(s, sep);
      var rest := Split(s[i + 1..], sep);
      assert s == s[..i] + [sep] + s[i + 1..];
      assert ([s[..i]] + rest)[1..] == rest;
      [s[..i]] + rest
  }

  lemma FirstIndexAfterPiece(a: string, rest: string, sep: char)
    requires sep !in a
    ensures sep in a + [sep] + rest
    ensures FirstIndex(a + [sep] + rest, sep) == |a|
  {
    var s := a + [sep] + rest;
    assert s[|a|] == sep;
    assert forall j :: 0 <= j < |a| ==> s[j] == a[j];
    var i := FirstIndex(s, sep);
    assert i <= |a| by {
      assert forall j :: |a| < j <= |s| ==> s[..j][|a|] == sep;
    }
  }

  /** A text without the separator is a single piece. */
  lemma SplitNoSep(s: string, sep: char)
    requires sep !in s
    ensures Split(s, sep) == [s]
  {
  }

  /** Splitting a piece, the separator and a tail yields the piece first. */
  lemma SplitCons(a: string, rest: string, sep: char)
    requires sep !in a
    ensures Split(a + [sep] + rest, sep) == [a] + Split(rest, sep)
  {
    var s := a + [sep] + rest;
    FirstIndexAfterPiece(a, rest, sep);
    assert s[..|a|] == a;
    assert s[|a| + 1..] == rest;
  }

  /** Splitting undoes joining when no piece holds the separator. */
  lemma {:induction false} SplitJoin(parts: seq<string>, sep: char)
    requires |parts| >= 1
    requires forall k :: 0 <= k < |parts| ==> sep !in parts[k]
    ensures Split(JoinWith(parts, sep), sep) == parts
  {
    if |parts| > 1 {
      SplitCons(parts[0], JoinWith(parts[1..], sep), sep);
      SplitJoin(parts[1..], sep);
      assert parts == [parts[0]] + parts[1..];
    }
  }

  /** Python's `a <= b` on strings: code-point lexicographic order, a proper
      prefix first. */
  predicate LexLe(a: string, b: string) {
    if |a| == 0 then true
    else if |b| == 0 then false
    else if a[0] != b[0] then a[0] < b[0]
    else LexLe(a[1..], b[1..])
  }

  lemma {:induction false} LexLeTotal(a: string, b: string)
    ensures LexLe(a, b) || LexLe(b, a)
  {
    if |a| > 0 && |b| > 0 && a[0] == b[0] {
      LexLeTotal(a[1..], b[1..]);
    }
  }

  lemma {:induction false} LexLeTransitive(a: string, b: string, c: string)
    requires LexLe(a, b) && LexLe(b, c)
    ensures LexLe(a, c)
  {
    if |a| > 0 && |b| > 0 && |c| > 0 && a[0] == b[0] && b[0] == c[0] {
      LexLeTransitive(a[1..], b[1..], c[1..]);
    }
  }

  lemma {:induction false} LexLeAntisymmetric(a: string, b: string)
    requires LexLe(a, b) && LexLe(b, a)
    ensures a == b
  {
    if |a| > 0 && |b| > 0 {
      LexLeAntisymmetric(a[1..], b[1..]);
      assert a == [a[0]] + a[1..];
      assert b == [b[0]] + b[1..];
    }
  }
}

=== FILE: worker.dfy ===
/** The pure parts of `FFmpegWorker.run` in logic/ffmpeg_worker.py: reading
    the tool's stderr line by line, the `frame=` search on each line, the
    progress percentage, and the final (success, message) pair. The process,
    the thread, the signals and the optional log file are not modelled: the
    whole stderr text and the return code are inputs, and the emitted
    signals are the results. */
module Worker {
  import opened Common
  import opened Text

  /** Text-mode pipes (`universal_newlines=True`) turn "\r\n" and a lone
      '\r' into '\n'; FFmpeg ends its status lines with '\r'. */
  function TranslateNewlines(raw: string): (s: string)
    ensures '\r' !in s
    ensures |s| <= |raw|
    ensures '\r' !in raw ==> s == raw
  {
    if |raw| == 0 then []
    else if raw[0] == '\r' then
      if |raw| >= 2 && raw[1] == '\n' then "\n" + TranslateNewlines(raw[2..])
      else "\n" + TranslateNewlines(raw[1..])
    else [raw[0]] + TranslateNewlines(raw[1..])
  }

  /** Every '\r' becomes a line break: a status line ending in '\r' reads
      as its own line. */
  lemma {:induction false} StatusLineIsALine(status: string, rest: string)
    requires '\r' !in status && '\n' !in status
    requires rest == "" || rest[0] != '\n'
    ensures TranslateNewlines(status + ['\r'] + rest) == status + ['\n'] + TranslateNewlines(rest)
    decreases |status|
  {
    var raw := status + ['\r'] + rest;
    if |status| > 0 {
      assert raw[0] == status[0] && raw[0] != '\r';
      assert raw[1..] == status[1..] + ['\r'] + rest;
      StatusLineIsALine(status[1..], rest);
      assert status == [status[0]] + status[1..];
    } else {
      assert raw == ['\r'] + rest;
      assert raw[1..] == rest;
    }
  }

  /** A cut that does not split a "\r\n" pair: each side translates on its
      own. */
  lemma {:induction false} TranslateAppend(a: string, b: string)
    requires a == "" || a[|a| - 1] != '\r'
    ensures TranslateNewlines(a + b) == TranslateNewlines(a) + TranslateNewlines(b)
    decreases |a|, 1
  {
    if a == "" {
      assert a + b == b;
    } else if a[0] == '\r' && a[1] == '\n' {
      AppendAfterCrLf(a, b);
    } else {
      AppendAfterOne(a, b);
    }
  }

  lemma {:induction false} AppendAfterCrLf(a: string, b: string)
    requires |a| >= 2 && a[0] == '\r' && a[1] == '\n' && a[|a| - 1] != '\r'
    ensures TranslateNewlines(a + b) == TranslateNewlines(a) + TranslateNewlines(b)
    decreases |a|, 0
  {
    assert (a + b)[2..] == a[2..] + b;
    TranslateAppend(a[2..], b);
  }

  lemma {:induction false} AppendAfterOne(a: string, b: string)
    requires |a| >= 1 && a[|a| - 1] != '\r'
    requires a[0] == '\r' ==> |a| >= 2 && a[1] != '\n'
    ensures TranslateNewlines(a + b) == TranslateNewlines(a) + TranslateNewlines(b)
    decreases |a|, 0
  {
    assert (a + b)[1..] == a[1..] + b;
    TranslateAppend(a[1..], b);
  }

  /** Translation of a text that starts with "\r\n". */
  lemma TranslateCrLfHead(b: string)
    ensures TranslateNewlines("\r\n" + b) == "\n" + TranslateNewlines(b)
  {
    assert ("\r\n" + b)[2..] == b;
  }

  /** Translation of a text that starts with a '\r' not followed by '\n'. */
  lemma TranslateLoneCrHead(c: string)
    requires c == "" || c[0] != '\n'
    ensures TranslateNewlines("\r" + c) == "\n" + TranslateNewlines(c)
  {
    assert ("\r" + c)[1..] == c;
  }

  /** Each "\r\n" becomes one '\n'. */
  lemma CrLfBecomesNewline(a: string, b: string)
    requires a == "" || a[|a| - 1] != '\r'
    ensures TranslateNewlines(a + ("\r\n" + b)) == TranslateNewlines(a) + ("\n" + TranslateNewlines(b))
  {
    TranslateCrLfHead(b);
    TranslateAppend(a, "\r\n" + b);
  }

  /** Each '\r' not followed by '\n' becomes a '\n' of its own. */
  lemma LoneCrBecomesNewline(a: string, c: string)
    requires a == "" || a[|a| - 1] != '\r'
    requires c == "" || c[0] != '\n'
    ensures TranslateNewlines(a + ("\r" + c)) == TranslateNewlines(a) + ("\n" + TranslateNewlines(c))
  {
    TranslateLoneCrHead(c);
    TranslateAppend(a, "\r" + c);
  }

  /** `stream.readline()`: up to and including the first '\n', or all that
      is left; "" only at end of stream. */
  function ReadLine(s: string): (r: (string, string))
    ensures r.0 + r.1 == s
    ensures r.0 == "" <==> s == ""
    ensures '\n' in s ==> r.0[|r.0| - 1] == '\n' && '\n' !in r.0[..|r.0| - 1]
    ensures '\n' !in s ==> r == (s, "")
  {
    if '\n' in s then
      var i := FirstIndex(s, '\n');
      assert s[..i + 1][..i] == s[..i];
      assert s[..i + 1] + s[i + 1..] == s;
      (s[..i + 1], s[i + 1..])
    else (s, "")
  }

  function Concat(parts: seq<string>): string {
    if |parts| == 0 then "" else parts[0] + Concat(parts[1..])
  }

  lemma {:induction false} ConcatAppend(a: seq<string>, b: seq<string>)
    ensures Concat(a + b) == Concat(a) + Concat(b)
  {
    if |a| > 0 {
      assert (a + b)[1..] == a[1..] + b;
      ConcatAppend(a[1..], b);
    } else {
      assert a + b == b;
    }
  }

  /** The lines `readline` hands out before it first returns "". */
  function Lines(s: string): (lines: seq<string>)
    ensures forall k :: 0 <= k < |lines| ==> lines[k] != ""
    decreases |s|
  {
    if s == "" then []
    else
      var (line, rest) := ReadLine(s);
      assert ([line] + Lines(rest))[1..] == Lines(rest);
      [line] + Lines(rest)
  }

  /** The lines read, put back together, are the whole stream. */
  lemma {:induction false} LinesRejoin(s: string)
    ensures Concat(Lines(s)) == s
    decreases |s|
  {
    if s != "" {
      var (line, rest) := ReadLine(s);
      LinesRejoin(rest);
      assert Lines(s) == [line] + Lines(rest);
      assert ([line] + Lines(rest))[1..] == Lines(rest);
    }
  }

  /** Python's `\s` on `str`: the characters `str.isspace()` accepts. */
  predicate IsSpace(c: char) {
    || '\t' <= c <= '\r' || '\U{1C}' <= c <= ' '
    || c == '\U{85}' || c == '\U{A0}' || c == '\U{1680}' || '\U{2000}' <= c <= '\U{200A}'
    || c == '\U{2028}' || c == '\U{2029}' || c == '\U{202F}' || c == '\U{205F}' || c == '\U{3000}'
  }

  /** Length of the whitespace run of `s` that starts at `k` (greedy `\s*`). */
  function SpaceRunLength(s: string, k: nat): (w: nat)
    requires k <= |s|
    ensures k + w <= |s|
    ensures forall j :: k <= j < k + w ==> IsSpace(s[j])
    ensures k + w == |s| || !IsSpace(s[k + w])
    decreases |s| - k
  {
    if k == |s| || !IsSpace(s[k]) then 0 else 1 + SpaceRunLength(s, k + 1)
  }

  lemma {:induction false} SpaceRunIs(s: string, k: nat, w: nat)
    requires k + w <= |s|
    requires forall j :: k <= j < k + w ==> IsSpace(s[j])
    requires k + w == |s| || !IsSpace(s[k + w])
    ensures SpaceRunLength(s, k) == w
    decreases w
  {
    if w > 0 {
      SpaceRunIs(s, k + 1, w - 1);
    }
  }

  const FrameKey: string := "frame="

  predicate KeyAt(line: string, p: int) {
    0 <= p && p + |FrameKey| <= |line| && line[p..p + |FrameKey|] == FrameKey
  }

  /** Where the digits would start after the key at `p` and its whitespace. */
  function DigitStart(line: string, p: int): (k: nat)
    requires KeyAt(line, p)
    ensures p + |FrameKey| <= k <= |line|
  {
    p + |FrameKey| + SpaceRunLength(line, p + |FrameKey|)
  }

  /** `frame=\s*(\d+)` matches at `p`, computed the way the greedy `\s*`
      settles: all the whitespace, then at least one digit. */
  predicate FrameAt(line: string, p: int) {
    KeyAt(line, p) && DigitStart(line, p) < |line| && IsDigit(line[DigitStart(line, p)])
  }

  /** The pattern's meaning without the greedy computation: the key, some
      whitespace, then a digit. */
  ghost predicate PatternMatchesAt(line: string, p: int) {
    KeyAt(line, p)
    && exists k :: p + |FrameKey| <= k < |line|
         && (forall j :: p + |FrameKey| <= j < k ==> IsSpace(line[j]))
         && IsDigit(line[k])
  }

  lemma FrameAtIsPatternMatch(line: string, p: int)
    ensures FrameAt(line, p) <==> PatternMatchesAt(line, p)
  {
    if FrameAt(line, p) {
      var k := DigitStart(line, p);
      assert IsDigit(line[k]);
    }
    if PatternMatchesAt(line, p) {
      var b := p + |FrameKey|;
      var k :| b <= k < |line|
         && (forall j :: b <= j < k ==> IsSpace(line[j]))
         && IsDigit(line[k]);
      var e := DigitStart(line, p);
      assert !IsSpace(line[k]);
      assert e <= k;
    }
  }

  /** The leftmost match at or after `p`, as `re.search` scans. */
  function FirstFrameFrom(line: string, p: nat): (r: Option<nat>)
    ensures r.Some? ==> p <= r.value && FrameAt(line, r.value)
    ensures r.Some? ==> forall q :: p <= q < r.value ==> !FrameAt(line, q)
    ensures r.None? ==> forall q :: p <= q ==> !FrameAt(line, q)
    decreases |line| - p
  {
    if p + |FrameKey| > |line| then None
    else if FrameAt(line, p) then Some(p)
    else FirstFrameFrom(line, p + 1)
  }

  /** The digits of group 1 at a match: the whole digit run. */
  function FrameDigits(line: string, p: int): (d: string)
    requires FrameAt(line, p)
    ensures IsNumeral(d)
    ensures DigitStart(line, p) + |d| <= |line|
    ensures d == line[DigitStart(line, p)..DigitStart(line, p) + |d|]
    ensures DigitStart(line, p) + |d| == |line| || !IsDigit(line[DigitStart(line, p) + |d|])
  {
    var k := DigitStart(line, p);
    line[k..k + DigitRunLength(line, k)]
  }

  /** `int(re.search(r"frame=\s*(\d+)", line).group(1))`, or nothing. */
  function FrameNumber(line: string): (r: Option<nat>)
    ensures r.None? <==> forall p :: !FrameAt(line, p)
  {
    match FirstFrameFrom(line, 0)
    case None => None
    case Some(p) => Some(NumeralValue(FrameDigits(line, p)))
  }

  /** The value is read at the leftmost match, wherever later ones are. */
  lemma FrameNumberIsLeftmost(line: string, p: nat)
    requires FrameAt(line, p)
    requires forall q :: 0 <= q < p ==> !FrameAt(line, q)
    ensures FrameNumber(line) == Some(NumeralValue(FrameDigits(line, p)))
  {
    var r := FirstFrameFrom(line, 0);
    assert r.Some?;
    assert !(r.value < p);
  }

  /** Where the pieces of `FrameKey + pad + digits + rest` sit. */
  lemma StatusLineLayout(pad: string, digits: string, rest: string)
    ensures var line := FrameKey + pad + digits + rest;
      var b, k := |FrameKey|, |FrameKey| + |pad|;
      && KeyAt(line, 0)
      && (forall j :: b <= j < k ==> line[j] == pad[j - b])
      && (forall j :: k <= j < k + |digits| ==> line[j] == digits[j - k])
      && (k + |digits| < |line| ==> line[k + |digits|] == rest[0])
      && line[k..k + |digits|] == digits
  {
    var line := FrameKey + pad + digits + rest;
    assert line[..|FrameKey|] == FrameKey;
  }

  /** The key, whitespace and a numeral make a match at 0 whose digits are
      that numeral. */
  lemma StatusLineMatch(pad: string, digits: string, rest: string)
    requires forall j :: 0 <= j < |pad| ==> IsSpace(pad[j])
    requires IsNumeral(digits)
    requires rest == "" || !IsDigit(rest[0])
    ensures FrameAt(FrameKey + pad + digits + rest, 0)
    ensures FrameDigits(FrameKey + pad + digits + rest, 0) == digits
  {
    var line := FrameKey + pad + digits + rest;
    var b, k := |FrameKey|, |FrameKey| + |pad|;
    StatusLineLayout(pad, digits, rest);
    assert IsDigit(line[k]);
    SpaceRunIs(line, b, |pad|);
    assert DigitStart(line, 0) == k;
    DigitRunIs(line, k, |digits|);
  }

  /** FFmpeg's status line "frame=<spaces><n><rest>" reports frame `n`,
      whatever the padding and whatever follows the number. */
  lemma StatusLineReportsFrame(pad: string, n: nat, rest: string)
    requires forall j :: 0 <= j < |pad| ==> IsSpace(pad[j])
    requires rest == "" || !IsDigit(rest[0])
    ensures FrameNumber(FrameKey + pad + NatToString(n) + rest) == Some(n)
  {
    StatusLineMatch(pad, NatToString(n), rest);
    FrameNumberIsLeftmost(FrameKey + pad + NatToString(n) + rest, 0);
  }

  /** `r` is 100·current/total rounded down. */
  predicate IsTruncatedPercent(r: nat, current: nat, total: nat) {
    r * total <= current * 100 < (r + 1) * total
  }

  /** `int(current / total * 100)`: the truncated percentage, read exactly
      (the quotient is a float in Python). Not clamped to 100. */
  function Percent(current: nat, total: nat): (r: nat)
    requires total > 0
    ensures IsTruncatedPercent(r, current, total)
  {
    current * 100 / total
  }

  lemma MulLe(a: int, b: int, t: nat)
    requires a <= b
    ensures a * t <= b * t
  {
    assert b * t - a * t == (b - a) * t;
  }

  /** Multiplying by a positive total keeps the order both ways. */
  lemma MulLeCancel(a: int, b: int, t: nat)
    requires t > 0 && a * t <= b * t
    ensures a <= b
  {
    if a > b {
      MulLe(b + 1, a, t);
    }
  }

  /** At most 100 exactly when the frame count is below 101/100 of the
      total, so a count up to the total never passes 100. */
  lemma PercentAtMostHundred(current: nat, total: nat)
    requires total > 0
    ensures Percent(current, total) <= 100 <==> current * 100 < 101 * total
    ensures current <= total ==> Percent(current, total) <= 100
  {
    var r := Percent(current, total);
    if r <= 100 {
      MulLe(r + 1, 101, total);
    } else {
      MulLe(101, r, total);
    }
    if current <= total {
      MulLe(current, total, 100);
    }
  }

  /** The last frame of the estimate shows exactly 100. */
  lemma PercentOfTotal(total: nat)
    requires total > 0
    ensures Percent(total, total) == 100
  {
    var q := Percent(total, total);
    assert q * total <= total * 100 < (q + 1) * total;
    assert total * 100 == 100 * total;
    MulLeCancel(q, 100, total);
    if q < 100 {
      MulLe(q + 1, 100, total);
    }
  }

  /** A later frame never shows a smaller percentage. */
  lemma PercentMonotone(a: nat, b: nat, total: nat)
    requires total > 0 && a <= b
    ensures Percent(a, total) <= Percent(b, total)
  {
    var ra, rb := Percent(a, total), Percent(b, total);
    MulLe(a, b, 100);
    if rb < ra {
      MulLe(rb + 1, ra, total);
    }
  }

  /** 150 frames of an estimated 100 show as 150%. */
  lemma PercentNotClamped()
    ensures Percent(150, 100) == 150
  {
  }

  /** What one line emits: a percentage if it carries a frame count. */
  function LineProgress(line: string, total: nat): (ps: seq<nat>)
    requires total > 0
    ensures |ps| <= 1
    ensures |ps| == 1 <==> FrameNumber(line).Some?
    ensures |ps| == 1 ==> IsTruncatedPercent(ps[0], FrameNumber(line).value, total)
  {
    var frame := FrameNumber(line);
    if frame.None? then []
    else
      var p := Percent(frame.value, total);
      assert IsTruncatedPercent(p, frame.value, total);
      [p]
  }

  /** A status line "frame=<spaces><n><rest>" emits the percentage of `n`. */
  lemma StatusLineProgress(pad: string, n: nat, rest: string, total: nat)
    requires total > 0
    requires forall j :: 0 <= j < |pad| ==> IsSpace(pad[j])
    requires rest == "" || !IsDigit(rest[0])
    ensures LineProgress(FrameKey + pad + NatToString(n) + rest, total) == [Percent(n, total)]
  {
    StatusLineReportsFrame(pad, n, rest);
  }

  /** One progress value per line carrying a frame count, in line order. */
  function ProgressOf(lines: seq<string>, total: nat): (ps: seq<nat>)
    requires total > 0
    ensures |ps| <= |lines|
  {
    if |lines| == 0 then []
    else
      LineProgress(lines[0], total) + ProgressOf(lines[1..], total)
  }

  lemma {:induction false} ProgressAppend(a: seq<string>, b: seq<string>, total: nat)
    requires total > 0
    ensures ProgressOf(a + b, total) == ProgressOf(a, total) + ProgressOf(b, total)
  {
    if |a| > 0 {
      assert (a + b)[1..] == a[1..] + b;
      ProgressAppend(a[1..], b, total);
    } else {
      assert a + b == b;
    }
  }

  /** Lines without a frame count emit nothing. */
  lemma {:induction false} NoFrameNoProgress(lines: seq<string>, total: nat)
    requires total > 0
    requires forall k :: 0 <= k < |lines| ==> FrameNumber(lines[k]).None?
    ensures ProgressOf(lines, total) == []
  {
    if |lines| > 0 {
      NoFrameNoProgress(lines[1..], total);
    }
  }

  /** One step of the read loop: the line read joins the lines consumed. */
  lemma ReadLinesStep(whole: string, read: seq<string>, stream: string)
    requires stream != ""
    requires read + Lines(stream) == Lines(whole)
    ensures read + [ReadLine(stream).0] + Lines(ReadLine(stream).1) == Lines(whole)
  {
    var line, rest := ReadLine(stream).0, ReadLine(stream).1;
    LinesStep(stream);
    assert read + [line] + Lines(rest) == read + ([line] + Lines(rest));
  }

  /** One step of the read loop: the line's progress value, if any, joins
      the values emitted. */
  lemma ProgressStep(read: seq<string>, line: string, total: nat)
    requires total > 0
    ensures ProgressOf(read + [line], total) == ProgressOf(read, total) + LineProgress(line, total)
  {
    ProgressAppend(read, [line], total);
    ProgressOfOne(line, total);
  }

  /** A non-empty stream's lines are its first line, then the rest's. */
  lemma LinesStep(stream: string)
    requires stream != ""
    ensures Lines(stream) == [ReadLine(stream).0] + Lines(ReadLine(stream).1)
  {
  }

  lemma ProgressOfOne(line: string, total: nat)
    requires total > 0
    ensures ProgressOf([line], total) == LineProgress(line, total)
  {
    assert [line][1..] == [];
  }

  /** The `finishedSignal` payload. */
  datatype Outcome = Outcome(success: bool, message: string)

  const FallbackMessage: string := "Error en FFmpeg."

  /** The final signal from the return code and the error text: the output
      path on success, else the error text, or a fixed message when that
      text is empty. */
  function Finish(retcode: int, errorOutput: string, outputFile: string): (o: Outcome)
    ensures o.success <==> retcode == 0
    ensures o.success ==> o.message == outputFile
    ensures !o.success && errorOutput != "" ==> o.message == errorOutput
    ensures !o.success && errorOutput == "" ==> o.message == FallbackMessage
  {
    if retcode == 0 then Outcome(true, outputFile)
    else Outcome(false, if errorOutput != "" then errorOutput else FallbackMessage)
  }

  /** The read loop of `FFmpegWorker.run`: `readline` until it returns "",
      emitting a progress value for each line with a frame count. The lines
      read make up the whole translated stream, and nothing is left of it. */
  method ReadStderr(stderr: string, totalFrames: nat)
    returns (progress: seq<nat>, read: seq<string>, rest: string)
    requires totalFrames > 0
    ensures rest == ""
    ensures read == Lines(TranslateNewlines(stderr))
    ensures progress == ProgressOf(read, totalFrames)
  {
    rest := TranslateNewlines(stderr);
    read := [];
    progress := [];
    while true
      invariant read + Lines(rest) == Lines(TranslateNewlines(stderr))
      invariant progress == ProgressOf(read, totalFrames)
      decreases |rest|
    {
      var next := ReadLine(rest);
      if next.0 == "" {
        break;
      }
      ReadLinesStep(TranslateNewlines(stderr), read, rest);
      ProgressStep(read, next.0, totalFrames);
      progress := progress + LineProgress(next.0, totalFrames);
      read := read + [next.0];
      rest := next.1;
    }
    assert read + [] == read;
  }

  /** `FFmpegWorker.run` as written: after the read loop, the failure
      branch reports `proc.stderr.read()`, which is what the loop left of
      the stream. */
  method Run(stderr: string, retcode: int, totalFrames: nat, outputFile: string)
    returns (progress: seq<nat>, finished: Outcome)
    requires totalFrames > 0
    ensures progress == ProgressOf(Lines(TranslateNewlines(stderr)), totalFrames)
    ensures finished.success <==> retcode == 0
    ensures finished.success ==> finished.message == outputFile
    ensures !finished.success ==> finished.message == FallbackMessage
  {
    var read, rest;
    progress, read, rest := ReadStderr(stderr, totalFrames);
    var errorOutput := if retcode != 0 then rest else "";
    finished := Finish(retcode, errorOutput, outputFile);
  }

  /** FFmpeg failing with "Invalid data\n" on stderr: the text is there,
      yet the message is the fixed one; the corrected loop reports it. */
  method ErrorTextIsLost() returns (stderr: string, asWritten: string, corrected: string)
    ensures stderr != "" && asWritten != stderr
    ensures asWritten == FallbackMessage && corrected == stderr
  {
    stderr := "Invalid data\n";
    assert forall k :: 0 <= k < |stderr| ==> stderr[k] != '\r';
    assert TranslateNewlines(stderr) == stderr;
    assert stderr[0] != FallbackMessage[0];
    var progress, finished := Run(stderr, 1, 100, "out.mp4");
    asWritten := finished.message;
    progress, finished := RunReportingErrors(stderr, 1, 100, "out.mp4");
    corrected := finished.message;
  }

  /** The same loop, reporting on failure the stderr text it read, which
      is what the message was meant to carry. */
  method RunReportingErrors(stderr: string, retcode: int, totalFrames: nat, outputFile: string)
    returns (progress: seq<nat>, finished: Outcome)
    requires totalFrames > 0
    ensures progress == ProgressOf(Lines(TranslateNewlines(stderr)), totalFrames)
    ensures finished.success <==> retcode == 0
    ensures finished.success ==> finished.message == outputFile
    ensures !finished.success && stderr != "" ==> finished.message == TranslateNewlines(stderr)
    ensures !finished.success && stderr == "" ==> finished.message == FallbackMessage
  {
    var read, rest;
    progress, read, rest := ReadStderr(stderr, totalFrames);
    LinesRejoin(TranslateNewlines(stderr));
    var errorOutput := if retcode != 0 then Concat(read) else "";
    finished := Finish(retcode, errorOutput, outputFile);
  }
}
